=== FILE: README.md ===
# SportMatch backend: a Dafny model of the controllers

This project models the decision logic of the SportMatch backend's Gin
controllers over an abstract, in-memory MongoDB. Each collection is a
sequence of records: `matches`, `swipes`, `chats` and `users`. Each handler
is a pure function that returns what it answers (a value or one of the
controller's error replies) together with the collection afterwards.

The model covers four areas:

- **Events** (`matches.dfy`): creating an event with its creator seated,
  listing upcoming events filtered by sport and level and sorted by start
  time, and joining an event. A join checks, in this order, that the event
  exists, that it is not full and that the caller is not already on it.
  The roster invariant is that the count equals the roster length and the
  roster has no repeats.
- **Swipes** (`swipes.dfy`): an append-only ledger with no de-duplication.
  Self-swipes are refused. A "right" swipe is reported as a match exactly
  when the opposite "right" swipe is already on file.
- **Messages** (`chats.dfy`, `conversations.dfy`):
  - the per-frame store step of the websocket loop, and the loop itself;
  - fetching one conversation and then marking its incoming messages read;
  - the conversation list that the aggregation pipeline computes.
- **Users** (`users.dfy`):
  - registration with a unique email and default preferences;
  - login, which gives the same answer for an unknown email and a wrong password;
  - reading a profile with the password hash blanked;
  - an allow-listed profile update;
  - the placeholder addresses recorded for uploaded pictures.

Shared pieces:

- `results.dfy` holds `Option`, `Result`, the error replies and `Reply`.
- `object_ids.dfy` models `ObjectIDFromHex` and `Hex`: 24 hex digits in,
  lower-case digits out. It proves both round trips.
- `seqs.dfy` holds the filter and the stable sort the queries use.

Some things the handlers get from outside become arguments:

- the current time;
- the id a new document receives;
- the password hash, the password check and the token signer, which are
  passed as functions;
- the file names of an upload.

`InsertOne` is modelled as failing only on a duplicate `_id`.

Behaviour of the code worth knowing:

- the interested direction is the literal `"right"`;
- nothing is pushed to a message's receiver;
- conversations are grouped by sender;
- the conversation list's `$project` writes the unread count as a bare `0`,
  which MongoDB reads as an exclusion next to included and computed fields,
  so the server refuses the pipeline and every caller whose id parses is
  answered "Failed to retrieve conversations";
- creating an event does not check that its capacity is at least 1, so
  "every event is within capacity" holds only for events created with a
  capacity of at least 1;
- a profile update whose id matches no user still answers success.

## Model

| member | source | states |
|---|---|---|
| ObjectIds.FromHex | backend/internal/controllers/matchController.go:26-30 | an id is produced exactly when the text is 24 hexadecimal digits, in either case |
| ObjectIds.FromHexOfHex | backend/internal/controllers/matchController.go:66 | parsing the printed form of an id gives back that id |
| ObjectIds.Hex | backend/internal/controllers/matchController.go:66 | an id prints as 24 lower-case hexadecimal digits, which `FromHexOfHex` reads back to the same id |
| ObjectIds.HexOfFromHex | backend/internal/controllers/swipeController.go:36-40 | printing a parsed id gives the input text in lower case |
| Matches.FindMatch | backend/internal/controllers/matchController.go:127-132 | the lookup fails exactly when no event has the id, and otherwise finds the first one that does |
| Matches.InsertMatch | backend/internal/controllers/matchController.go:59 | the insert succeeds exactly when no stored event has the new id, and then appends exactly that event |
| Matches.NewMatch | backend/internal/controllers/matchController.go:43-57 | a new event seats only its creator, with count 1, so its roster is consistent |
| Matches.CreateMatch | backend/internal/controllers/matchController.go:26-66 | creation fails with an invalid caller id or a start time in the past, and then inserts nothing; otherwise it appends one event carrying the input fields, the creator as sole participant, count 1, and both timestamps set to now |
| Matches.CreateKeepsInvariants | backend/internal/controllers/matchController.go:43-64 | creation keeps every roster consistent and every event id unique |
| Matches.GetMatches | backend/internal/controllers/matchController.go:75-86 | the listing holds exactly the stored events that start after now and match each non-empty filter, each as often as stored, ordered by start time ascending |
| Matches.CreatedNowIsNotYetListed | backend/internal/controllers/matchController.go:38-41 | an event starting exactly now is accepted, yet the strict-future listing filter leaves it out |
| Matches.JoinMatch | backend/internal/controllers/matchController.go:114-153 | the errors come in order: invalid caller, invalid event id, not found, full, already a participant; every error leaves the store unchanged; success is exactly "below capacity and not on the roster"; success bumps the count by one, appends the caller once, sets updatedAt, stays within capacity and leaves every other event untouched |
| Matches.JoinKeepsInvariants | backend/internal/controllers/matchController.go:134-153 | any join keeps count equal to roster length with no repeats, keeps ids unique, and keeps every event within capacity |
| Matches.JoinsFillFreePlaces | backend/internal/controllers/matchController.go:127-153 | distinct newcomers joining in turn: the number who succeed is the smaller of the newcomers and the free places, and the final count is the old count plus the successes, never above capacity |
| Swipes.FindRight | backend/internal/controllers/swipeController.go:64-71 | the reciprocal lookup succeeds exactly when the ledger holds that "right" swipe |
| Swipes.CreateSwipe | backend/internal/controllers/swipeController.go:24-79 | invalid ids and self-swipes are refused and store nothing; any other swipe appends exactly one record, adding one to that pair's count; is_match holds exactly for a "right" swipe whose opposite "right" swipe is already on file |
| Swipes.ReciprocalIgnoresOwnRecord | backend/internal/controllers/swipeController.go:62-71 | because swiper and swiped differ, the record just written cannot answer its own reciprocal lookup |
| Swipes.MatchMeansConnected | backend/internal/controllers/swipeController.go:62-79 | for a "right" swipe, is_match holds exactly when the two users have swiped right on each other in the resulting ledger |
| Swipes.MutualRightSwipesMatch | backend/internal/controllers/swipeController.go:56-76 | two "right" swipes between two users, one each way, make the second answer is_match true |
| Swipes.RepeatedSwipesAccumulate | backend/internal/controllers/swipeController.go:48-60 | swiping the same person twice leaves two new records, not one |
| Chats.StoreFrame | backend/internal/controllers/chatController.go:55-96 | a frame is echoed exactly when it decodes, both ids parse and the insert succeeds; it then stores one unread message from the connected user to the given receiver with the given text; a skipped frame stores nothing |
| Chats.ServeSession | backend/internal/controllers/chatController.go:48-97 | over a whole session the log only grows, by exactly one message per echo; every new message is from the connected user and unread; an invalid user id stores and echoes nothing; when every frame decodes, names a parsable receiver and gets a fresh id, each frame is stored in turn with its receiver and text and echoed in turn |
| Chats.MarkRead | backend/internal/controllers/chatController.go:229-233 | only the unread messages from the other user to the reader become read; every other message and field stays as it was |
| Chats.MarkReadIdempotent | backend/internal/controllers/chatController.go:229-233 | marking read twice is the same as marking read once |
| Chats.GetChatMessages | backend/internal/controllers/chatController.go:192-238 | the reply holds exactly the messages between the two users, each as often as stored, with the read flags they had before the call; the store afterwards is the marked-read log; invalid ids give errors and change nothing |
| Chats.ReplyPrecedesMarkRead | backend/internal/controllers/chatController.go:213-238 | an incoming unread message is answered as unread although the same call stores it as read |
| Conversations.NewestFirst | backend/internal/controllers/chatController.go:115-126 | the pipeline keeps exactly the messages the user sent or received, newest first |
| Conversations.Heads | backend/internal/controllers/chatController.go:127-131 | `$first` per group picks positions in increasing order, each holding a key met for the first time |
| Conversations.HeadsAreFirst | backend/internal/controllers/chatController.go:127-131 | the message `$first` picks for a group has no earlier message with the same key |
| Conversations.HeadsCoverKeys | backend/internal/controllers/chatController.go:127-131 | every key in the stream gets a group |
| Conversations.Groups | backend/internal/controllers/chatController.go:115-131 | each group head is a message involving the user; heads have distinct keys; each head is the newest message of its group |
| Conversations.GroupsCover | backend/internal/controllers/chatController.go:127-131 | every message involving the user belongs to some group |
| Conversations.UnreadProjectionRule | backend/internal/controllers/chatController.go:153-162 | the final `$project` is accepted exactly when its unread count does not exclude the field: a bare 0 is refused, a literal 0 is not |
| Conversations.Summarize | backend/internal/controllers/chatController.go:153-162 | the accepted projection names the head's other party and reports an unread count of 0 |
| Conversations.ConversationsBySender | backend/internal/controllers/chatController.go:115-162 | once the projection is accepted there is one entry per sender group; each entry's other user is the head's receiver when the user sent it and its sender otherwise; the text and time come from the head, the newest message of the group; the unread count is 0 |
| Conversations.Aggregate | backend/internal/controllers/chatController.go:166-170 | the aggregation fails with "Failed to retrieve conversations" exactly when the projection is refused |
| Conversations.GetUserConversations | backend/internal/controllers/chatController.go:108-170 | an id that does not parse is reported as invalid; every other caller gets "Failed to retrieve conversations", whatever the log holds |
| Conversations.GetUserConversationsLiteral | backend/internal/controllers/chatController.go:108-170 | with the unread count written as a literal, an id that does not parse is reported as invalid and every other caller gets the sender-grouped list |
| Conversations.UnreadZeroRefused | backend/internal/controllers/chatController.go:153-170 | for every parsing caller and every log, the empty one included, the handler as written fails while the literal version answers a list |
| Conversations.SenderGroupingDropsConversation | backend/internal/controllers/chatController.go:127-131 | with the projection accepted, a user who wrote to two people and received nothing gets only the later conversation |
| Conversations.SenderGroupingDuplicatesConversation | backend/internal/controllers/chatController.go:127-138 | with the projection accepted, a message received and answered gives two entries for the same person |
| Conversations.ConversationsByCounterpart | backend/internal/controllers/chatController.go:114-131 | grouping by the other party gives each correspondent exactly once, carrying the newest message in either direction |
| Conversations.CounterpartGroupingKeepsBoth | backend/internal/controllers/chatController.go:127-131 | on the log where sender grouping loses a conversation, grouping by the other party lists both |
| Users.FindByEmail | backend/internal/controllers/userController.go:29 | the lookup fails exactly when no user has the address, and otherwise finds the first one that does |
| Users.FindById | backend/internal/controllers/userController.go:123 | the lookup of a profile, and the record `UpdateByID` addresses, is missing exactly when no user has the id, and otherwise is the first user who does |
| Users.NewUser | backend/internal/controllers/userController.go:43-58 | a new user carries the submitted details, the password's hash and the defaults: no sports, "Everyone", ages 18 to 99, "All Levels", no pictures |
| Users.RegisterUser | backend/internal/controllers/userController.go:27-73 | a taken email is refused and inserts nothing, as do a failed hash and a refused insert; otherwise exactly the new user is appended; once the insert succeeds, a signing failure is answered as a token error and leaves the user inserted; success answers the signed token and the new hex id |
| Users.RegisterKeepsInvariants | backend/internal/controllers/userController.go:27-64 | registration keeps emails unique and ids unique |
| Users.LoginUser | backend/internal/controllers/userController.go:84-105 | login answers "invalid credentials" exactly when the email is unknown or the password does not match the first user with it; success belongs to a user with that email whose hash accepts the password; when the first user with the email accepts the password, login succeeds exactly when that user's id can be signed, and answers that token and that user's hex id |
| Users.LoginFailuresAlike | backend/internal/controllers/userController.go:85-96 | an unknown email and a wrong password get identical answers |
| Users.RegisterThenLogin | backend/internal/controllers/userController.go:36-105 | when the check accepts every hash the hasher makes, a successful registration can log in at once with the same email and password, and gets the same answer |
| Users.GetUserProfile | backend/internal/controllers/userController.go:116-131 | the profile is the stored record of the caller with the password hash blanked; an invalid id or an unknown user gives an error |
| Users.UpdateUserProfile | backend/internal/controllers/userController.go:142-171 | every caller whose id parses is answered success, and an unparsable id is an error that changes nothing; only sports, lookingForGender, ageRange, skillLevel and updatedAt of the caller's record change, to the given values; an unknown id changes nothing |
| Users.ProfileChangesKeepInvariants | backend/internal/controllers/userController.go:154-164 | profile updates and picture uploads keep emails and ids unique |
| Users.FilenameOfPictureUrl | backend/internal/controllers/userController.go:217 | the file name can be read back from its placeholder address |
| Users.PictureUrls | backend/internal/controllers/userController.go:200-219 | one address per file, in order, each the placeholder prefix followed by a name that reads back as that file's name |
| Users.PictureUrlsInjective | backend/internal/controllers/userController.go:200-219 | different file lists record different address lists |
| Users.UploadProfilePictures | backend/internal/controllers/userController.go:182-235 | an invalid id or an empty upload is an error that changes nothing; otherwise the answer lists, for each file in order, "https://example.com/profile_pictures/" followed by its name, and the caller's record holds exactly that list with updatedAt set, all other fields unchanged |

## Left out

- HTTP binding, JSON and extended-JSON decoding, and status codes. A request body that fails to bind is not modelled. A chat frame arrives already decoded, or marked as undecodable.
- The "user id missing from the request context" branch of every handler. The authentication middleware always sets the id, and that middleware is not part of this model. Parsing of the id is modelled.
- Websocket upgrade, reading and writing. A failed read or echo write ends the loop in the code; the model serves a given list of frames to the end.
- Database errors other than a duplicate `_id` on insert: failed queries, cursor decoding, a failed mark-read (which is only logged) and a failed `UpdateByID`.
- The `updatedAt` that mark-read writes, because the chat record has no such field to read back.
- The `$lookup`/`$unwind` join of the conversation list with `users`, and the `userName` and `userAvatar` fields the `$project` takes from it. That join supplies the name and avatar and drops entries whose other party has no user record. The rest of the `$project` is modelled.
- Conversations.ConversationsBySender: promises nothing about the order of its entries. `$group` leaves that order unspecified; the model happens to list groups newest first.
- Matches.CreateKeepsInvariants: does not promise that every event stays within capacity, because creation accepts a capacity of 0 and then stores an event whose creator already overfills it.
- The floating-point fee and coordinates of an event.
- Wall-clock time, which is an integer argument.
- Password hashing, password checking and token signing. They are function arguments, not implementations.
- The parse error of the multipart form. An upload is its list of file names.
- Concurrency: the read-then-write race in joining an event, the race between two reciprocal swipes, and the check-then-insert race on the email in registration (userController.go:29-60), which can store two users with one address; that is why login speaks of the first user with an address. The model is sequential.
- Matches.GetMatches: keeps the stored order among events with equal start times. MongoDB does not fix that order, so nothing is claimed about it beyond the ascending sort.

## Findings

| source | as written | input that shows it | evidently intended | confidence | as-written member | corrected member |
|---|---|---|---|---|---|---|
| backend/internal/controllers/chatController.go:153-162 | the `$project` of the conversation list writes `"unreadCount": 0`, which MongoDB reads as excluding the field, beside included and computed fields; the server refuses such a projection, so `Aggregate` fails | any caller whose id parses, with any log, the empty one included: the answer is 500 "Failed to retrieve conversations" | an unread count of literally zero, `{"$literal": 0}`, as the TODO beside it says | not executed | Conversations.GetUserConversations, Conversations.UnreadZeroRefused | Conversations.GetUserConversationsLiteral, Conversations.UnreadProjectionRule |
| backend/internal/controllers/chatController.go:127-131 | the conversation list groups the user's messages by sender (a fault that shows once the projection above is accepted, and is proved on that pipeline), so all messages the user sent form one group, and a correspondent who also wrote to the user forms a second group | user A sends to B and later to C, and receives nothing: only the conversation with C is listed. B writes to A and A replies: two entries, both for B | one entry per correspondent (the code's own comment asks for "distinct conversations"), holding the newest message in either direction | not executed | Conversations.SenderGroupingDropsConversation, Conversations.SenderGroupingDuplicatesConversation | Conversations.ConversationsByCounterpart, Conversations.CounterpartGroupingKeepsBoth |

=== FILE: chats.dfy ===
/** The message log: storing frames received over the chat websocket, and
    fetching one conversation while marking its incoming messages read.

    The websocket loop reads one frame at a time. A frame that does not
    decode, or whose receiver id or whose sender (the connected user's id)
    is not a valid ObjectID, is skipped; so is one the store refuses. Any
    other frame becomes one unread message from the connected user, and
    only then is the raw frame echoed back to the sender. Nothing is pushed
    to the receiver.
 */
module Chats {
  import opened Results
  import opened ObjectIds
  import Seqs

  datatype Chat = Chat(id: ObjectId, sender: ObjectId, receiver: ObjectId, message: string, timestamp: Time, read: bool)

  /** The decoded body of a frame: the receiver's hex id and the text. */
  datatype ChatInput = ChatInput(receiverId: string, message: string)

  /** A frame as read from the socket: its raw payload, and what decoding
      that payload as extended JSON produced (`None` when it failed). */
  datatype Frame = Frame(raw: string, decoded: Option<ChatInput>)

  /** What one iteration of the loop does with a frame. */
  datatype FrameOutcome = Echoed(raw: string) | Skipped

  /** One frame as the loop meets it: the frame and the id and time the
      handler generates for it. */
  datatype Arrival = Arrival(frame: Frame, newId: ObjectId, at: Time)

  predicate IdFree(log: seq<Chat>, id: ObjectId) {
    forall k :: 0 <= k < |log| ==> log[k].id != id
  }

  /** The message a storable frame becomes. */
  ghost predicate StoredFrom(c: Chat, user: string, f: Frame, id: ObjectId, now: Time) {
    && f.decoded.Some?
    && Some(c.sender) == FromHex(user)
    && Some(c.receiver) == FromHex(f.decoded.value.receiverId)
    && c.message == f.decoded.value.message
    && c.id == id && c.timestamp == now
    && !c.read
  }

  /** One iteration of the websocket loop of `ServeWs` for the connected
      user `user` (the hex id from the token). */
  function StoreFrame(log: seq<Chat>, user: string, f: Frame, id: ObjectId, now: Time)
    : (r: (FrameOutcome, seq<Chat>))
    ensures r.0.Echoed? <==>
      && f.decoded.Some?
      && FromHex(f.decoded.value.receiverId).Some?
      && FromHex(user).Some?
      && IdFree(log, id)
    ensures r.0.Skipped? ==> r.1 == log
    ensures r.0.Echoed? ==>
      && r.0.raw == f.raw
      && |r.1| == |log| + 1 && r.1[..|log|] == log
      && StoredFrom(r.1[|log|], user, f, id, now)
  {
    match f.decoded
    case None => (Skipped, log)
    case Some(input) =>
      match FromHex(input.receiverId)
      case None => (Skipped, log)
      case Some(receiver) =>
        match FromHex(user)
        case None => (Skipped, log)
        case Some(sender) =>
          if !IdFree(log, id) then (Skipped, log)
          else
            var log' := log + [Chat(id, sender, receiver, input.message, now, false)];
            assert log'[..|log|] == log;
            (Echoed(f.raw), log')
  }

  /** Every frame of a session can be stored: the connected user's id
      parses, every frame decodes with a receiver id that parses, and the
      ids generated for the frames are new to the log and to each other. */
  predicate AllStorable(log: seq<Chat>, user: string, arrivals: seq<Arrival>) {
    && FromHex(user).Some?
    && (forall k :: 0 <= k < |arrivals| ==>
          arrivals[k].frame.decoded.Some? && FromHex(arrivals[k].frame.decoded.value.receiverId).Some?)
    && (forall k :: 0 <= k < |arrivals| ==> IdFree(log, arrivals[k].newId))
    && (forall j, k :: 0 <= j < k < |arrivals| ==> arrivals[j].newId != arrivals[k].newId)
  }

  /** The whole loop over the frames of one connection, in arrival order:
      returns the log afterwards and the frames echoed back. Every echo
      stands for exactly one new message, and every new message comes from
      the connected user and is unread. When every frame can be stored,
      each is stored in turn, with its receiver and text, and echoed in
      turn. */
  method ServeSession(log: seq<Chat>, user: string, arrivals: seq<Arrival>) returns (log': seq<Chat>, echoes: seq<string>)
    ensures |log| <= |log'| && log'[..|log|] == log
    ensures |log'| == |log| + |echoes|
    ensures |echoes| <= |arrivals|
    ensures forall k :: |log| <= k < |log'| ==> Some(log'[k].sender) == FromHex(user) && !log'[k].read
    ensures FromHex(user).None? ==> log' == log && echoes == []
    ensures AllStorable(log, user, arrivals) ==>
      && |echoes| == |arrivals|
      && forall k :: 0 <= k < |arrivals| ==>
        && echoes[k] == arrivals[k].frame.raw
        && StoredFrom(log'[|log| + k], user, arrivals[k].frame, arrivals[k].newId, arrivals[k].at)
  {
    log' := log;
    echoes := [];
    var n := 0;
    while n < |arrivals|
      invariant 0 <= n <= |arrivals|
      invariant |log| <= |log'| && log'[..|log|] == log
      invariant |log'| == |log| + |echoes|
      invariant |echoes| <= n
      invariant forall k :: |log| <= k < |log'| ==> Some(log'[k].sender) == FromHex(user) && !log'[k].read
      invariant FromHex(user).None? ==> log' == log && echoes == []
      invariant AllStorable(log, user, arrivals) ==>
        && |echoes| == n
        && forall k :: 0 <= k < n ==>
          && echoes[k] == arrivals[k].frame.raw
          && StoredFrom(log'[|log| + k], user, arrivals[k].frame, arrivals[k].newId, arrivals[k].at)
    {
      var a := arrivals[n];
      if AllStorable(log, user, arrivals) {
        SessionIdFree(log, log', arrivals, n);
      }
      var step := StoreFrame(log', user, a.frame, a.newId, a.at);
      if step.0.Echoed? {
        assert step.1[..|log'|] == log';
        assert step.1[..|log|] == log'[..|log|];
        echoes := echoes + [step.0.raw];
      }
      log' := step.1;
      n := n + 1;
    }
  }

  /** After the first `n` frames of a fully storable session, the id
      generated for the next frame is still free. */
  lemma SessionIdFree(log: seq<Chat>, log': seq<Chat>, arrivals: seq<Arrival>, n: nat)
    requires n < |arrivals|
    requires |log'| == |log| + n && log'[..|log|] == log
    requires forall k :: 0 <= k < |arrivals| ==> IdFree(log, arrivals[k].newId)
    requires forall j, k :: 0 <= j < k < |arrivals| ==> arrivals[j].newId != arrivals[k].newId
    requires forall k :: 0 <= k < n ==> log'[|log| + k].id == arrivals[k].newId
    ensures IdFree(log', arrivals[n].newId)
  {
    forall k | 0 <= k < |log'|
      ensures log'[k].id != arrivals[n].newId
    {
      if k < |log| {
        assert log'[k] == log[k];
      } else {
        assert log'[|log| + (k - |log|)].id == arrivals[k - |log|].newId;
      }
    }
  }

  // ---------------------------------------------------------------------
  // GetChatMessages

  /** The message belongs to the conversation between `a` and `b`. */
  predicate Between(c: Chat, a: ObjectId, b: ObjectId) {
    (c.sender == a && c.receiver == b) || (c.sender == b && c.receiver == a)
  }

  /** The message is one `reader` has not yet read from `other`. */
  predicate UnreadFrom(c: Chat, other: ObjectId, reader: ObjectId) {
    c.sender == other && c.receiver == reader && !c.read
  }

  /** `UpdateMany({sender: other, receiver: reader, read: false}, {$set: {read: true}})`:
      the same messages in the same order, the matched ones now read. */
  function MarkRead(log: seq<Chat>, reader: ObjectId, other: ObjectId): (r: seq<Chat>)
    ensures |r| == |log|
    ensures forall k :: 0 <= k < |log| ==>
      && r[k].(read := log[k].read) == log[k]
      && (r[k].read <==> log[k].read || UnreadFrom(log[k], other, reader))
    ensures forall k :: 0 <= k < |r| ==> !UnreadFrom(r[k], other, reader)
  {
    if log == [] then []
    else
      var c := log[0];
      var c' := if UnreadFrom(c, other, reader) then c.(read := true) else c;
      [c'] + MarkRead(log[1..], reader, other)
  }

  /** Marking read a second time changes nothing. */
  lemma MarkReadIdempotent(log: seq<Chat>, reader: ObjectId, other: ObjectId)
    ensures MarkRead(MarkRead(log, reader, other), reader, other) == MarkRead(log, reader, other)
  {
    var once := MarkRead(log, reader, other);
    var twice := MarkRead(once, reader, other);
    forall k | 0 <= k < |once| ensures twice[k] == once[k] {
      assert twice[k].(read := once[k].read) == once[k];
    }
  }

  /** GET /chats/:otherUserID/messages. Answers the messages between the
      two users in stored order, read flags as they were before this call,
      and marks the incoming ones read. */
  function GetChatMessages(log: seq<Chat>, caller: string, otherId: string): (r: Reply<seq<Chat>, seq<Chat>>)
    ensures FromHex(caller).None? ==> r.result == Err(InvalidCallerId)
    ensures FromHex(caller).Some? && FromHex(otherId).None? ==> r.result == Err(InvalidTargetId)
    ensures r.result.Err? ==> r.store == log
    ensures r.result.Ok? <==> FromHex(caller).Some? && FromHex(otherId).Some?
    ensures r.result.Ok? ==>
      var user, other := FromHex(caller).value, FromHex(otherId).value;
      && (forall c :: c in r.result.value <==> c in log && Between(c, user, other))
      && (forall c :: multiset(r.result.value)[c] == if Between(c, user, other) then multiset(log)[c] else 0)
      && r.store == MarkRead(log, user, other)
      && (forall c :: c in r.result.value && UnreadFrom(c, other, user) ==> c !in r.store)
  {
    match FromHex(caller)
    case None => Reply(Err(InvalidCallerId), log)
    case Some(user) =>
      match FromHex(otherId)
      case None => Reply(Err(InvalidTargetId), log)
      case Some(other) =>
        var messages := Seqs.Filter(log, c => Between(c, user, other));
        Reply(Ok(messages), MarkRead(log, user, other))
  }

  /** The reply shows an incoming message as unread even though the same
      call has already marked it read in the store: a one-message instance
      of the last clause of `GetChatMessages`, which states it for every
      log. */
  lemma ReplyPrecedesMarkRead(id: ObjectId, a: ObjectId, b: ObjectId, t: Time)
    requires a != b
    ensures var log := [Chat(id, b, a, "hi", t, false)];
      var r := GetChatMessages(log, Hex(a), Hex(b));
      && r.result == Ok(log)
      && r.store == [Chat(id, b, a, "hi", t, true)]
  {
    FromHexOfHex(a);
    FromHexOfHex(b);
    var log := [Chat(id, b, a, "hi", t, false)];
    var r := GetChatMessages(log, Hex(a), Hex(b));
    var m := r.result.value;
    assert log[0] in m;
    assert |m| == 1 && m[0] in log;
    assert m == log;
    assert MarkRead(log, a, b) == [log[0].(read := true)];
  }
}

=== FILE: conversations.dfy ===
/** The conversation list of GET /chats: an aggregation over the message log.

    The pipeline keeps the messages the user sent or received, orders them
    newest first, groups them and takes the first (so the newest) message of
    each group, and reports for each group the other party of that message,
    its text and its time, with an unread count meant to be zero. The grouping
    key is the message's SENDER. All messages the user sent thus fall into a
    single group, so a user who wrote to several people sees only the latest
    of those conversations, and a conversation with replies can appear twice
    (once for the user's own group, once for the other person's).
    `ConversationsByCounterpart` groups by the other party instead, which is
    what a list of distinct conversations calls for.

    The final `$project` document writes the unread count as a bare `0`,
    which MongoDB reads as "exclude this field", and it also includes and
    computes other fields; the server refuses such a document, so the
    handler as written always answers "Failed to retrieve conversations"
    once the caller's id parses. `GetUserConversationsLiteral` is the
    handler with the count written as the literal it is meant to be.

    The join with the `users` collection that adds a name and an avatar, and
    drops groups whose other party has no user document, is not part of
    this model; neither is the order of the groups, which MongoDB's `$group`
    leaves unspecified (this model lists them newest first).
 */
module Conversations {
  import opened Results
  import opened ObjectIds
  import opened Chats
  import Seqs

  datatype Conversation = Conversation(otherUser: ObjectId, lastMessage: string, lastMessageTime: Time, unreadCount: int)

  predicate Involves(c: Chat, u: ObjectId) {
    c.sender == u || c.receiver == u
  }

  /** The party of `c` that is not `u`. */
  function OtherParty(c: Chat, u: ObjectId): ObjectId {
    if c.sender == u then c.receiver else c.sender
  }

  /** What the messages are grouped by: the sender, as the pipeline is
      written, or the other party, as a conversation list calls for. */
  datatype GroupKey = BySender | ByCounterpart

  function KeyOf(grouping: GroupKey, c: Chat, u: ObjectId): ObjectId {
    match grouping
    case BySender => c.sender
    case ByCounterpart => OtherParty(c, u)
  }

  /** `$match` on sender or receiver, then `$sort` by timestamp descending. */
  function NewestFirst(log: seq<Chat>, u: ObjectId): (r: seq<Chat>)
    ensures forall c :: c in r <==> c in log && Involves(c, u)
    ensures forall i, j :: 0 <= i < j < |r| ==> r[i].timestamp >= r[j].timestamp
  {
    var involved := Seqs.Filter(log, c => Involves(c, u));
    var r := Seqs.SortBy(involved, (c: Chat) => -c.timestamp);
    assert forall c :: c in r <==> c in multiset(involved);
    r
  }

  /** The positions in `s`, from `from` on, of the first message of each key
      not in `seen`: what `$group` with `$first` picks from an ordered
      stream. */
  function Heads(s: seq<Chat>, grouping: GroupKey, u: ObjectId, from: nat, seen: set<ObjectId>): (r: seq<nat>)
    requires from <= |s|
    ensures forall i :: 0 <= i < |r| ==> from <= r[i] < |s| && KeyOf(grouping, s[r[i]], u) !in seen
    ensures forall i, j :: 0 <= i < j < |r| ==> r[i] < r[j]
    decreases |s| - from
  {
    if from == |s| then []
    else if KeyOf(grouping, s[from], u) in seen then Heads(s, grouping, u, from + 1, seen)
    else [from] + Heads(s, grouping, u, from + 1, seen + {KeyOf(grouping, s[from], u)})
  }

  /** No message of `s` before a position in `r` shares that position's key. */
  ghost predicate FirstOfKey(s: seq<Chat>, grouping: GroupKey, u: ObjectId, r: seq<nat>) {
    forall i, k :: 0 <= i < |r| && 0 <= k < r[i] < |s| ==> KeyOf(grouping, s[k], u) != KeyOf(grouping, s[r[i]], u)
  }

  /** No message before a head shares its key, so heads have distinct keys. */
  lemma {:induction false} HeadsAreFirst(s: seq<Chat>, grouping: GroupKey, u: ObjectId, from: nat, seen: set<ObjectId>)
    requires from <= |s|
    requires forall k :: 0 <= k < from ==> KeyOf(grouping, s[k], u) in seen
    ensures FirstOfKey(s, grouping, u, Heads(s, grouping, u, from, seen))
    decreases |s| - from
  {
    if from < |s| {
      if KeyOf(grouping, s[from], u) in seen {
        HeadsAreFirst(s, grouping, u, from + 1, seen);
        assert Heads(s, grouping, u, from, seen) == Heads(s, grouping, u, from + 1, seen);
      } else {
        var seen' := seen + {KeyOf(grouping, s[from], u)};
        HeadsAreFirst(s, grouping, u, from + 1, seen');
        HeadsAreFirstStep(s, grouping, u, from, seen);
      }
    }
  }

  /** The inductive step of `HeadsAreFirst` when `s[from]` opens a group. */
  lemma HeadsAreFirstStep(s: seq<Chat>, grouping: GroupKey, u: ObjectId, from: nat, seen: set<ObjectId>)
    requires from < |s| && KeyOf(grouping, s[from], u) !in seen
    requires forall k :: 0 <= k < from ==> KeyOf(grouping, s[k], u) in seen
    requires FirstOfKey(s, grouping, u, Heads(s, grouping, u, from + 1, seen + {KeyOf(grouping, s[from], u)}))
    ensures FirstOfKey(s, grouping, u, Heads(s, grouping, u, from, seen))
  {
    var seen' := seen + {KeyOf(grouping, s[from], u)};
    var rest := Heads(s, grouping, u, from + 1, seen');
    var r := Heads(s, grouping, u, from, seen);
    assert r == [from] + rest;
    forall i, k | 0 <= i < |r| && 0 <= k < r[i] < |s|
      ensures KeyOf(grouping, s[k], u) != KeyOf(grouping, s[r[i]], u)
    {
      if i == 0 {
        assert KeyOf(grouping, s[k], u) in seen;
      } else {
        var h := rest[i - 1];
        assert r[i] == h;
        assert KeyOf(grouping, s[h], u) !in seen';
        if k <= from {
          assert KeyOf(grouping, s[k], u) in seen';
        } else {
          assert 0 <= i - 1 < |rest| && 0 <= k < rest[i - 1] < |s|;
        }
      }
    }
  }

  /** Every key met from `from` on and not yet seen has a head. */
  lemma {:induction false} HeadsCoverKeys(s: seq<Chat>, grouping: GroupKey, u: ObjectId, from: nat, seen: set<ObjectId>, k: nat)
    requires from <= k < |s| && KeyOf(grouping, s[k], u) !in seen
    ensures var r := Heads(s, grouping, u, from, seen);
      exists i :: 0 <= i < |r| && KeyOf(grouping, s[r[i]], u) == KeyOf(grouping, s[k], u)
    decreases |s| - from
  {
    var r := Heads(s, grouping, u, from, seen);
    if KeyOf(grouping, s[from], u) in seen {
      assert k != from;
      assert r == Heads(s, grouping, u, from + 1, seen);
      HeadsCoverKeys(s, grouping, u, from + 1, seen, k);
      var i :| 0 <= i < |r| && KeyOf(grouping, s[r[i]], u) == KeyOf(grouping, s[k], u);
      assert 0 <= i < |Heads(s, grouping, u, from, seen)|;
      assert KeyOf(grouping, s[Heads(s, grouping, u, from, seen)[i]], u) == KeyOf(grouping, s[k], u);
    } else if KeyOf(grouping, s[k], u) == KeyOf(grouping, s[from], u) {
      assert KeyOf(grouping, s[r[0]], u) == KeyOf(grouping, s[k], u);
      assert exists i :: 0 <= i < |r| && KeyOf(grouping, s[r[i]], u) == KeyOf(grouping, s[k], u);
      assert r == Heads(s, grouping, u, from, seen);
    } else {
      var rest := Heads(s, grouping, u, from + 1, seen + {KeyOf(grouping, s[from], u)});
      assert r == [from] + rest;
      HeadsCoverKeys(s, grouping, u, from + 1, seen + {KeyOf(grouping, s[from], u)}, k);
      var i :| 0 <= i < |rest| && KeyOf(grouping, s[rest[i]], u) == KeyOf(grouping, s[k], u);
      assert r[i + 1] == rest[i];
    }
  }

  /** The messages of `s` at the positions `idx`, in that order. */
  function Pick(s: seq<Chat>, idx: seq<nat>): (g: seq<Chat>)
    requires forall i :: 0 <= i < |idx| ==> idx[i] < |s|
    ensures |g| == |idx|
    ensures forall i :: 0 <= i < |idx| ==> g[i] == s[idx[i]]
  {
    seq(|idx|, i requires 0 <= i < |idx| => s[idx[i]])
  }

  /** The head message of every group of the messages involving `u`, grouped
      by `grouping`: one head per distinct key, each head the newest message
      of its group. `GroupsCover` adds that every involved message's key has
      a head. */
  function Groups(log: seq<Chat>, u: ObjectId, grouping: GroupKey): (g: seq<Chat>)
    ensures forall i :: 0 <= i < |g| ==> g[i] in log && Involves(g[i], u)
    ensures forall i, j :: 0 <= i < j < |g| ==> KeyOf(grouping, g[i], u) != KeyOf(grouping, g[j], u)
    ensures forall i, c :: 0 <= i < |g| && c in log && Involves(c, u) && KeyOf(grouping, c, u) == KeyOf(grouping, g[i], u) ==>
      c.timestamp <= g[i].timestamp
  {
    var s := NewestFirst(log, u);
    var idx := Heads(s, grouping, u, 0, {});
    var g := Pick(s, idx);
    GroupHeadsDistinct(s, grouping, u, idx, g);
    GroupHeadsNewest(s, grouping, u, idx, g);
    g
  }

  /** Every message involving `u` has a group: some head shares its key.
      (Stated for one message at a time; as a clause of `Groups` it would
      feed its own witnesses back into the clause that heads come from
      the log.) */
  lemma GroupsCover(log: seq<Chat>, u: ObjectId, grouping: GroupKey, c: Chat)
    requires c in log && Involves(c, u)
    ensures var g := Groups(log, u, grouping);
      exists i :: 0 <= i < |g| && KeyOf(grouping, g[i], u) == KeyOf(grouping, c, u)
  {
    var s := NewestFirst(log, u);
    GroupHeadsCover(s, grouping, u, Heads(s, grouping, u, 0, {}), Groups(log, u, grouping));
    assert c in s;
  }

  lemma GroupHeadsDistinct(s: seq<Chat>, grouping: GroupKey, u: ObjectId, idx: seq<nat>, g: seq<Chat>)
    requires idx == Heads(s, grouping, u, 0, {}) && g == Pick(s, idx)
    ensures forall i, j :: 0 <= i < j < |g| ==> KeyOf(grouping, g[i], u) != KeyOf(grouping, g[j], u)
  {
    HeadsAreFirst(s, grouping, u, 0, {});
    forall i, j | 0 <= i < j < |g|
      ensures KeyOf(grouping, g[i], u) != KeyOf(grouping, g[j], u)
    {
      assert idx[i] < idx[j];
      assert KeyOf(grouping, s[idx[i]], u) != KeyOf(grouping, s[Heads(s, grouping, u, 0, {})[j]], u);
    }
  }

  lemma GroupHeadsNewest(s: seq<Chat>, grouping: GroupKey, u: ObjectId, idx: seq<nat>, g: seq<Chat>)
    requires forall i, j :: 0 <= i < j < |s| ==> s[i].timestamp >= s[j].timestamp
    requires idx == Heads(s, grouping, u, 0, {}) && g == Pick(s, idx)
    ensures forall i, c :: 0 <= i < |g| && c in s && KeyOf(grouping, c, u) == KeyOf(grouping, g[i], u) ==> c.timestamp <= g[i].timestamp
  {
    HeadsAreFirst(s, grouping, u, 0, {});
    forall i, c | 0 <= i < |g| && c in s && KeyOf(grouping, c, u) == KeyOf(grouping, g[i], u)
      ensures c.timestamp <= g[i].timestamp
    {
      var k :| 0 <= k < |s| && s[k] == c;
      assert idx[i] <= k;
    }
  }

  lemma GroupHeadsCover(s: seq<Chat>, grouping: GroupKey, u: ObjectId, idx: seq<nat>, g: seq<Chat>)
    requires idx == Heads(s, grouping, u, 0, {}) && g == Pick(s, idx)
    ensures forall c :: c in s ==> exists i :: 0 <= i < |g| && KeyOf(grouping, g[i], u) == KeyOf(grouping, c, u)
  {
    forall c | c in s
      ensures exists i :: 0 <= i < |g| && KeyOf(grouping, g[i], u) == KeyOf(grouping, c, u)
    {
      var k :| 0 <= k < |s| && s[k] == c;
      HeadsCoverKeys(s, grouping, u, 0, {}, k);
      var i :| 0 <= i < |idx| && KeyOf(grouping, s[idx[i]], u) == KeyOf(grouping, s[k], u);
      assert KeyOf(grouping, g[i], u) == KeyOf(grouping, c, u);
    }
  }

  /** A value of a `$project` document: a number (zero excludes the field,
      any other number keeps it), a field path such as `"$otherUser"`, an
      operator expression such as `$arrayElemAt`, or `{"$literal": n}`. */
  datatype ProjectionValue = Number(n: int) | FieldPath(path: string) | Operator(name: string) | Literal(value: int)

  datatype ProjectionField = ProjectionField(name: string, value: ProjectionValue)

  predicate Excludes(v: ProjectionValue) {
    v == Number(0)
  }

  /** MongoDB's rule for a `$project` document: either every field in it is
      excluded, or `_id` is the only field it excludes. The server refuses
      any other document before the pipeline reads a message. */
  predicate ProjectionAccepted(p: seq<ProjectionField>) {
    || (forall i :: 0 <= i < |p| ==> Excludes(p[i].value))
    || (forall i :: 0 <= i < |p| && Excludes(p[i].value) ==> p[i].name == "_id")
  }

  /** The final `$project` of the pipeline, with `unread` as the value of
      `unreadCount`. */
  function ConversationProjection(unread: ProjectionValue): seq<ProjectionField> {
    [ ProjectionField("_id", Number(0)),
      ProjectionField("id", FieldPath("$otherUser")),
      ProjectionField("userName", FieldPath("$otherUserDetails.name")),
      ProjectionField("userAvatar", Operator("$arrayElemAt")),
      ProjectionField("lastMessage", Number(1)),
      ProjectionField("lastMessageTime", Number(1)),
      ProjectionField("unreadCount", unread) ]
  }

  /** The projection is accepted exactly when the unread count does not
      exclude its field: a bare `0` is refused, `{"$literal": 0}` is not. */
  lemma UnreadProjectionRule(unread: ProjectionValue)
    ensures ProjectionAccepted(ConversationProjection(unread)) <==> !Excludes(unread)
  {
    var p := ConversationProjection(unread);
    if Excludes(unread) {
      assert !Excludes(p[1].value);
      assert Excludes(p[6].value) && p[6].name != "_id";
    } else {
      forall i | 0 <= i < |p| && Excludes(p[i].value)
        ensures p[i].name == "_id"
      {
        assert i == 0;
      }
    }
  }

  /** The accepted `$project` applied to a group head: its other party, its
      text and its time, and an unread count of zero. The user's name and
      avatar come from the join and are not part of this model. */
  function Summarize(head: Chat, u: ObjectId): (c: Conversation)
    ensures c.unreadCount == 0
    ensures c.otherUser == OtherParty(head, u)
  {
    Conversation(OtherParty(head, u), head.message, head.timestamp, 0)
  }

  function SummarizeAll(g: seq<Chat>, u: ObjectId): (r: seq<Conversation>)
    ensures |r| == |g|
    ensures forall i :: 0 <= i < |g| ==> r[i] == Summarize(g[i], u)
  {
    seq(|g|, i requires 0 <= i < |g| => Summarize(g[i], u))
  }

  /** What the pipeline computes once its `$project` is accepted: one entry
      per distinct sender among the messages involving `u`, each taken from
      the newest message of that sender's group. */
  function ConversationsBySender(log: seq<Chat>, u: ObjectId): (r: seq<Conversation>)
    ensures var g := Groups(log, u, BySender);
      && |r| == |g|
      && forall i :: 0 <= i < |g| ==>
        && r[i].unreadCount == 0
        && r[i].otherUser == (if g[i].sender == u then g[i].receiver else g[i].sender)
        && r[i].lastMessage == g[i].message
        && r[i].lastMessageTime == g[i].timestamp
  {
    SummarizeAll(Groups(log, u, BySender), u)
  }

  /** `Aggregate` with the pipeline of GET /chats ending in the projection
      `p`: refused when MongoDB does not accept `p`, and otherwise the
      conversation list. */
  function Aggregate(log: seq<Chat>, u: ObjectId, p: seq<ProjectionField>): (r: Result<seq<Conversation>>)
    ensures r.Err? <==> !ProjectionAccepted(p)
    ensures r.Err? ==> r.error == ConversationsFailed
  {
    if ProjectionAccepted(p) then Ok(ConversationsBySender(log, u)) else Err(ConversationsFailed)
  }

  /** GET /chats, as written: an id that does not parse is reported as such,
      and every other caller gets "Failed to retrieve conversations",
      whatever the log holds, because the projection is refused. */
  function GetUserConversations(log: seq<Chat>, caller: string): (r: Result<seq<Conversation>>)
    ensures FromHex(caller).None? <==> r == Err(InvalidCallerId)
    ensures FromHex(caller).Some? ==> r == Err(ConversationsFailed)
  {
    match FromHex(caller)
    case None => Err(InvalidCallerId)
    case Some(u) =>
      UnreadProjectionRule(Number(0));
      Aggregate(log, u, ConversationProjection(Number(0)))
  }

  /** GET /chats with the unread count written as `{"$literal": 0}`: every
      caller whose id parses gets the sender-grouped conversation list. */
  function GetUserConversationsLiteral(log: seq<Chat>, caller: string): (r: Result<seq<Conversation>>)
    ensures FromHex(caller).None? <==> r == Err(InvalidCallerId)
    ensures FromHex(caller).Some? ==> r == Ok(ConversationsBySender(log, FromHex(caller).value))
  {
    match FromHex(caller)
    case None => Err(InvalidCallerId)
    case Some(u) =>
      UnreadProjectionRule(Literal(0));
      Aggregate(log, u, ConversationProjection(Literal(0)))
  }

  /** The handler as written and the one with the literal count differ for
      every caller whose id parses, on every log, including the empty one:
      the first fails, the second answers a list. */
  lemma UnreadZeroRefused(log: seq<Chat>, caller: string)
    requires FromHex(caller).Some?
    ensures GetUserConversations(log, caller) == Err(ConversationsFailed)
    ensures GetUserConversationsLiteral(log, caller).Ok?
  {
  }

  /** Grouping by the other party: exactly one entry per person the user
      has exchanged messages with, carrying the newest message in either
      direction between them. */
  function ConversationsByCounterpart(log: seq<Chat>, u: ObjectId): (r: seq<Conversation>)
    ensures forall i, j :: 0 <= i < j < |r| ==> r[i].otherUser != r[j].otherUser
    ensures forall c :: c in log && Involves(c, u) ==> exists i :: 0 <= i < |r| && r[i].otherUser == OtherParty(c, u)
    ensures forall i :: 0 <= i < |r| ==>
      && r[i].unreadCount == 0
      && exists h :: h in log && Involves(h, u) && OtherParty(h, u) == r[i].otherUser
                    && r[i].lastMessage == h.message && r[i].lastMessageTime == h.timestamp
    ensures forall i, c :: 0 <= i < |r| && c in log && Involves(c, u) && OtherParty(c, u) == r[i].otherUser ==>
      c.timestamp <= r[i].lastMessageTime
  {
    var g := Groups(log, u, ByCounterpart);
    var r := SummarizeAll(g, u);
    CounterpartsDistinct(log, u, g, r);
    CounterpartsCovered(log, u, g, r);
    CounterpartEntriesFromLog(log, u, g, r);
    CounterpartEntriesNewest(log, u, g, r);
    r
  }

  lemma CounterpartsDistinct(log: seq<Chat>, u: ObjectId, g: seq<Chat>, r: seq<Conversation>)
    requires g == Groups(log, u, ByCounterpart) && r == SummarizeAll(g, u)
    ensures forall i, j :: 0 <= i < j < |r| ==> r[i].otherUser != r[j].otherUser
  {
    forall i, j | 0 <= i < j < |r|
      ensures r[i].otherUser != r[j].otherUser
    {
      assert KeyOf(ByCounterpart, g[i], u) != KeyOf(ByCounterpart, g[j], u);
    }
  }

  lemma CounterpartsCovered(log: seq<Chat>, u: ObjectId, g: seq<Chat>, r: seq<Conversation>)
    requires g == Groups(log, u, ByCounterpart) && r == SummarizeAll(g, u)
    ensures forall c :: c in log && Involves(c, u) ==> exists i :: 0 <= i < |r| && r[i].otherUser == OtherParty(c, u)
  {
    forall c | c in log && Involves(c, u)
      ensures exists i :: 0 <= i < |r| && r[i].otherUser == OtherParty(c, u)
    {
      GroupsCover(log, u, ByCounterpart, c);
      var i :| 0 <= i < |g| && KeyOf(ByCounterpart, g[i], u) == KeyOf(ByCounterpart, c, u);
      assert r[i].otherUser == OtherParty(c, u);
    }
  }

  lemma CounterpartEntriesFromLog(log: seq<Chat>, u: ObjectId, g: seq<Chat>, r: seq<Conversation>)
    requires g == Groups(log, u, ByCounterpart) && r == SummarizeAll(g, u)
    ensures forall i :: 0 <= i < |r| ==>
      && r[i].unreadCount == 0
      && exists h :: h in log && Involves(h, u) && OtherParty(h, u) == r[i].otherUser
                    && r[i].lastMessage == h.message && r[i].lastMessageTime == h.timestamp
  {
    forall i | 0 <= i < |r|
      ensures exists h :: h in log && Involves(h, u) && OtherParty(h, u) == r[i].otherUser
                         && r[i].lastMessage == h.message && r[i].lastMessageTime == h.timestamp
    {
      var h := g[i];
      assert h in log && Involves(h, u) && OtherParty(h, u) == r[i].otherUser;
    }
  }

  lemma CounterpartEntriesNewest(log: seq<Chat>, u: ObjectId, g: seq<Chat>, r: seq<Conversation>)
    requires g == Groups(log, u, ByCounterpart) && r == SummarizeAll(g, u)
    ensures forall i, c :: 0 <= i < |r| && c in log && Involves(c, u) && OtherParty(c, u) == r[i].otherUser ==>
      c.timestamp <= r[i].lastMessageTime
  {
    forall i, c | 0 <= i < |r| && c in log && Involves(c, u) && OtherParty(c, u) == r[i].otherUser
      ensures c.timestamp <= r[i].lastMessageTime
    {
      assert KeyOf(ByCounterpart, c, u) == KeyOf(ByCounterpart, g[i], u);
    }
  }

  /** The log holds `m1` and `m2` and nothing else (in any order, with any
      repetitions). */
  predicate HoldsExactly(log: seq<Chat>, m1: Chat, m2: Chat) {
    && m1 in log && m2 in log
    && forall k :: 0 <= k < |log| ==> log[k] == m1 || log[k] == m2
  }

  /** Heads with pairwise distinct keys drawn from `{x, y}` number at most
      two, and at most one when `x == y`. */
  lemma {:induction false} FewKeysFewHeads(g: seq<Chat>, grouping: GroupKey, u: ObjectId, x: ObjectId, y: ObjectId)
    ensures (forall i, j :: 0 <= i < j < |g| ==> KeyOf(grouping, g[i], u) != KeyOf(grouping, g[j], u))
         && (forall i :: 0 <= i < |g| ==> KeyOf(grouping, g[i], u) == x || KeyOf(grouping, g[i], u) == y)
         ==> |g| <= 2 && (x == y ==> |g| <= 1)
  {
    if |g| > 1 {
      assert (forall i, j :: 0 <= i < j < |g| ==> KeyOf(grouping, g[i], u) != KeyOf(grouping, g[j], u))
        ==> KeyOf(grouping, g[0], u) != KeyOf(grouping, g[1], u);
    }
    if |g| > 2 {
      assert (forall i, j :: 0 <= i < j < |g| ==> KeyOf(grouping, g[i], u) != KeyOf(grouping, g[j], u))
        ==> KeyOf(grouping, g[0], u) != KeyOf(grouping, g[2], u) && KeyOf(grouping, g[1], u) != KeyOf(grouping, g[2], u);
    }
  }

  /** What `Groups` promises about its result `g`, one message-level
      clause at a time. */
  ghost predicate HeadsOf(log: seq<Chat>, u: ObjectId, grouping: GroupKey, g: seq<Chat>) {
    && (forall i :: 0 <= i < |g| ==> g[i] in log && Involves(g[i], u))
    && (forall i, j :: 0 <= i < j < |g| ==> KeyOf(grouping, g[i], u) != KeyOf(grouping, g[j], u))
    && (forall i, c :: 0 <= i < |g| && c in log && Involves(c, u) && KeyOf(grouping, c, u) == KeyOf(grouping, g[i], u) ==>
          c.timestamp <= g[i].timestamp)
  }

  /** The message has a head of its key among `g`. */
  ghost predicate HasHead(g: seq<Chat>, u: ObjectId, grouping: GroupKey, c: Chat) {
    exists i :: 0 <= i < |g| && KeyOf(grouping, g[i], u) == KeyOf(grouping, c, u)
  }

  lemma GroupsAreHeads(log: seq<Chat>, u: ObjectId, grouping: GroupKey, c: Chat)
    requires c in log && Involves(c, u)
    ensures HeadsOf(log, u, grouping, Groups(log, u, grouping))
    ensures HasHead(Groups(log, u, grouping), u, grouping, c)
  {
    GroupsCover(log, u, grouping, c);
  }

  /** Two messages the user sent: both fall into the user's one group,
      whose head is the later of the two. */
  lemma {:induction false} OutgoingPairOneHead(log: seq<Chat>, a: ObjectId, m1: Chat, m2: Chat, g: seq<Chat>)
    requires HoldsExactly(log, m1, m2)
    requires m1.sender == a && m2.sender == a && m1.timestamp < m2.timestamp
    requires HeadsOf(log, a, BySender, g) && HasHead(g, a, BySender, m1)
    ensures |g| == 1 && g[0] == m2
  {
    assert forall i :: 0 <= i < |g| ==> KeyOf(BySender, g[i], a) == a;
    FewKeysFewHeads(g, BySender, a, a, a);
    assert g[0] in log;
    assert m2 in log && Involves(m2, a) && KeyOf(BySender, m2, a) == KeyOf(BySender, g[0], a);
    assert m2.timestamp <= g[0].timestamp;
    assert g[0] == m1 || g[0] == m2;
  }

  /** A message received and a reply sent: two groups, one per sender. */
  lemma {:induction false} ReplyPairTwoHeads(log: seq<Chat>, a: ObjectId, m1: Chat, m2: Chat, g: seq<Chat>)
    requires HoldsExactly(log, m1, m2)
    requires a != m1.sender && m1.receiver == a && m2.sender == a
    requires HeadsOf(log, a, BySender, g) && HasHead(g, a, BySender, m1) && HasHead(g, a, BySender, m2)
    ensures |g| == 2 && g[0] != g[1]
    ensures forall k :: 0 <= k < |g| ==> g[k] == m1 || g[k] == m2
  {
    var i :| 0 <= i < |g| && KeyOf(BySender, g[i], a) == KeyOf(BySender, m1, a);
    var j :| 0 <= j < |g| && KeyOf(BySender, g[j], a) == KeyOf(BySender, m2, a);
    assert forall k :: 0 <= k < |g| ==> g[k] == m1 || g[k] == m2;
    assert g[i] == m1 && g[j] == m2;
    assert i != j;
    FewKeysFewHeads(g, BySender, a, m1.sender, a);
    assert |g| == 2;
  }

  /** Two messages the user sent to two different people: one head each. */
  lemma {:induction false} OutgoingPairTwoCounterparts(log: seq<Chat>, a: ObjectId, m1: Chat, m2: Chat, g: seq<Chat>)
    requires HoldsExactly(log, m1, m2)
    requires m1.sender == a && m2.sender == a && m1.receiver != a && m2.receiver != a
    requires m1.receiver != m2.receiver
    requires HeadsOf(log, a, ByCounterpart, g) && HasHead(g, a, ByCounterpart, m1) && HasHead(g, a, ByCounterpart, m2)
    ensures |g| == 2
    ensures exists i :: 0 <= i < |g| && OtherParty(g[i], a) == m1.receiver
    ensures exists i :: 0 <= i < |g| && OtherParty(g[i], a) == m2.receiver
  {
    var i :| 0 <= i < |g| && KeyOf(ByCounterpart, g[i], a) == KeyOf(ByCounterpart, m1, a);
    var j :| 0 <= j < |g| && KeyOf(ByCounterpart, g[j], a) == KeyOf(ByCounterpart, m2, a);
    assert forall k :: 0 <= k < |g| ==> g[k] == m1 || g[k] == m2;
    assert i != j;
    FewKeysFewHeads(g, ByCounterpart, a, m1.receiver, m2.receiver);
  }

  /** Where the grouping as written goes wrong: a user who wrote to one
      person and later to another, and received nothing, gets a single
      conversation, the later one; the earlier conversation is missing. */
  lemma SenderGroupingDropsConversation(log: seq<Chat>, a: ObjectId, m1: Chat, m2: Chat)
    requires HoldsExactly(log, m1, m2)
    requires m1.sender == a && m2.sender == a && m1.receiver != a && m2.receiver != a
    requires m1.receiver != m2.receiver && m1.timestamp < m2.timestamp
    ensures var r := ConversationsBySender(log, a);
      && |r| == 1
      && r[0].otherUser == m2.receiver
      && forall i :: 0 <= i < |r| ==> r[i].otherUser != m1.receiver
  {
    OutgoingPairOneGroup(log, a, m1, m2);
    var g := Groups(log, a, BySender);
    var r := ConversationsBySender(log, a);
    assert r == SummarizeAll(g, a);
    assert r[0] == Summarize(g[0], a);
  }

  /** `OutgoingPairOneHead` for the heads `Groups` computes. */
  lemma OutgoingPairOneGroup(log: seq<Chat>, a: ObjectId, m1: Chat, m2: Chat)
    requires HoldsExactly(log, m1, m2)
    requires m1.sender == a && m2.sender == a && m1.timestamp < m2.timestamp
    ensures var g := Groups(log, a, BySender);
      |g| == 1 && g[0] == m2
  {
    GroupsAreHeads(log, a, BySender, m1);
    OutgoingPairOneHead(log, a, m1, m2, Groups(log, a, BySender));
  }

  /** Where the grouping as written goes wrong: after someone wrote to the
      user and the user replied, the user gets two entries, both for that
      same person. */
  lemma SenderGroupingDuplicatesConversation(log: seq<Chat>, a: ObjectId, m1: Chat, m2: Chat)
    requires HoldsExactly(log, m1, m2)
    requires a != m1.sender && m1.receiver == a && m2.sender == a && m2.receiver == m1.sender
    ensures var r := ConversationsBySender(log, a);
      && |r| == 2
      && r[0].otherUser == m1.sender && r[1].otherUser == m1.sender
  {
    ReplyPairOtherParties(log, a, m1, m2);
    var g := Groups(log, a, BySender);
    var r := ConversationsBySender(log, a);
    assert r == SummarizeAll(g, a);
    assert r[0] == Summarize(g[0], a) && r[1] == Summarize(g[1], a);
  }

  /** `ReplyPairTwoHeads` for the heads `Groups` computes, stated in terms
      of the other party of each head. */
  lemma ReplyPairOtherParties(log: seq<Chat>, a: ObjectId, m1: Chat, m2: Chat)
    requires HoldsExactly(log, m1, m2)
    requires a != m1.sender && m1.receiver == a && m2.sender == a && m2.receiver == m1.sender
    ensures var g := Groups(log, a, BySender);
      |g| == 2 && OtherParty(g[0], a) == m1.sender && OtherParty(g[1], a) == m1.sender
  {
    GroupsAreHeads(log, a, BySender, m1);
    GroupsAreHeads(log, a, BySender, m2);
    ReplyPairTwoHeads(log, a, m1, m2, Groups(log, a, BySender));
  }

  /** On the log where the pipeline as written loses a conversation,
      grouping by the other party lists both. */
  lemma CounterpartGroupingKeepsBoth(log: seq<Chat>, a: ObjectId, m1: Chat, m2: Chat)
    requires HoldsExactly(log, m1, m2)
    requires m1.sender == a && m2.sender == a && m1.receiver != a && m2.receiver != a
    requires m1.receiver != m2.receiver
    ensures var r := ConversationsByCounterpart(log, a);
      && |r| == 2
      && (exists i :: 0 <= i < |r| && r[i].otherUser == m1.receiver)
      && (exists i :: 0 <= i < |r| && r[i].otherUser == m2.receiver)
  {
    var g := Groups(log, a, ByCounterpart);
    GroupsAreHeads(log, a, ByCounterpart, m1);
    GroupsAreHeads(log, a, ByCounterpart, m2);
    OutgoingPairTwoCounterparts(log, a, m1, m2, g);
  }
}

=== FILE: matches.dfy ===
/** Scheduled sport events ("matches") and their capacity-bounded rosters.

    The `matches` collection is a sequence of `Match` documents. Creating an
    event seats its creator; listing returns the upcoming events that pass
    the optional sport and level filters, earliest first; joining checks, in
    this order, that the event exists, that it is not full and that the
    caller is not already on it, and then bumps the count and appends the
    caller in a single update.
 */
module Matches {
  import opened Results
  import opened ObjectIds
  import Seqs

  /** The location of an event. The optional longitude/latitude pair is
      floating point and not part of this model. */
  datatype Location = Location(name: string, address: string)

  datatype Match = Match(
    id: ObjectId,
    creator: ObjectId,
    sport: string,
    startTime: Time,
    maxPeople: int,
    currentParticipants: int,
    location: Location,
    level: string,
    description: string,
    participants: seq<ObjectId>,
    createdAt: Time,
    updatedAt: Time)

  /** The body of a create request, already bound from JSON. */
  datatype MatchInput = MatchInput(
    sport: string,
    startTime: Time,
    maxPeople: int,
    location: Location,
    level: string,
    description: string)

  // ---------------------------------------------------------------------
  // Store invariants

  /** The stored count agrees with the roster, and nobody is on it twice. */
  ghost predicate RosterConsistent(m: Match) {
    && m.currentParticipants == |m.participants|
    && forall i, j :: 0 <= i < j < |m.participants| ==> m.participants[i] != m.participants[j]
  }

  ghost predicate WithinCapacity(m: Match) {
    m.currentParticipants <= m.maxPeople
  }

  ghost predicate AllConsistent(store: seq<Match>) {
    forall i :: 0 <= i < |store| ==> RosterConsistent(store[i])
  }

  ghost predicate AllWithinCapacity(store: seq<Match>) {
    forall i :: 0 <= i < |store| ==> WithinCapacity(store[i])
  }

  ghost predicate UniqueIds(store: seq<Match>) {
    forall i, j :: 0 <= i < j < |store| ==> store[i].id != store[j].id
  }

  predicate IdFree(store: seq<Match>, id: ObjectId) {
    forall i :: 0 <= i < |store| ==> store[i].id != id
  }

  // ---------------------------------------------------------------------
  // Store primitives

  /** `FindOne({_id: id})`: the position of the first document with that id. */
  function FindMatch(store: seq<Match>, id: ObjectId): (r: Option<nat>)
    ensures r.None? <==> IdFree(store, id)
    ensures r.Some? ==> r.value < |store| && store[r.value].id == id && IdFree(store[..r.value], id)
  {
    if store == [] then None
    else if store[0].id == id then Some(0)
    else match FindMatch(store[1..], id)
      case None => None
      case Some(k) =>
        assert store[..k + 1] == [store[0]] + store[1..][..k];
        Some(k + 1)
  }

  /** `InsertOne`: refused when a document with the same `_id` exists. */
  function InsertMatch(store: seq<Match>, m: Match): (r: Option<seq<Match>>)
    ensures r.Some? <==> IdFree(store, m.id)
    ensures r.Some? ==> r.value == store + [m]
  {
    if IdFree(store, m.id) then Some(store + [m]) else None
  }

  // ---------------------------------------------------------------------
  // CreateMatch

  /** The document a successful create inserts: the creator is the first
      and only participant. */
  function NewMatch(id: ObjectId, creator: ObjectId, input: MatchInput, now: Time): (m: Match)
    ensures RosterConsistent(m)
    ensures m.participants == [creator] && m.currentParticipants == 1
  {
    Match(id, creator, input.sport, input.startTime, input.maxPeople, 1, input.location,
          input.level, input.description, [creator], now, now)
  }

  /** POST /matches. Answers the new event's id. */
  function CreateMatch(store: seq<Match>, caller: string, input: MatchInput, newId: ObjectId, now: Time)
    : (r: Reply<ObjectId, seq<Match>>)
    ensures FromHex(caller).None? ==> r.result == Err(InvalidCallerId)
    ensures FromHex(caller).Some? && input.startTime < now ==> r.result == Err(StartTimeInPast)
    ensures r.result.Ok? <==> FromHex(caller).Some? && now <= input.startTime && IdFree(store, newId)
    ensures r.result.Err? ==> r.store == store
    ensures r.result.Ok? ==>
      && r.result.value == newId
      && |r.store| == |store| + 1 && r.store[..|store|] == store
      && var m := r.store[|store|];
      && m.id == newId && m.creator == FromHex(caller).value
      && m.participants == [m.creator] && m.currentParticipants == 1
      && m.sport == input.sport && m.startTime == input.startTime
      && m.maxPeople == input.maxPeople && m.location == input.location
      && m.level == input.level && m.description == input.description
      && m.createdAt == now && m.updatedAt == now
  {
    match FromHex(caller)
    case None => Reply(Err(InvalidCallerId), store)
    case Some(creator) =>
      if input.startTime < now then Reply(Err(StartTimeInPast), store)
      else match InsertMatch(store, NewMatch(newId, creator, input, now))
        case None => Reply(Err(StoreFailed), store)
        case Some(store') =>
          assert store'[..|store|] == store;
          Reply(Ok(newId), store')
  }

  /** Creating an event keeps every roster consistent and every id unique. */
  lemma CreateKeepsInvariants(store: seq<Match>, caller: string, input: MatchInput, newId: ObjectId, now: Time)
    requires AllConsistent(store) && UniqueIds(store)
    ensures var r := CreateMatch(store, caller, input, newId, now);
      AllConsistent(r.store) && UniqueIds(r.store)
  {
    var r := CreateMatch(store, caller, input, newId, now);
    if r.result.Ok? {
      assert r.store == store + [NewMatch(newId, FromHex(caller).value, input, now)];
    }
  }

  // ---------------------------------------------------------------------
  // GetMatches

  /** The query filter: strictly in the future, and equal to each filter
      value that is not the empty string. */
  predicate Listed(m: Match, now: Time, sport: string, level: string) {
    && m.startTime > now
    && (sport == "" || m.sport == sport)
    && (level == "" || m.level == level)
  }

  /** GET /matches?sport=&level=. MongoDB leaves the order of equal start
      times open; this model keeps their stored order. */
  function GetMatches(store: seq<Match>, now: Time, sport: string, level: string): (r: seq<Match>)
    ensures forall m :: m in r <==> (m in store && m.startTime > now
                                     && (sport == "" || m.sport == sport)
                                     && (level == "" || m.level == level))
    ensures forall m :: multiset(r)[m] == if Listed(m, now, sport, level) then multiset(store)[m] else 0
    ensures forall i, j :: 0 <= i < j < |r| ==> r[i].startTime <= r[j].startTime
  {
    var upcoming := Seqs.Filter(store, m => Listed(m, now, sport, level));
    var r := Seqs.SortBy(upcoming, (m: Match) => m.startTime);
    assert forall m :: m in r <==> m in multiset(upcoming);
    r
  }

  /** An event created with start time `now` is accepted but is not listed
      at that same instant: creation refuses only the past, listing wants
      the strict future. */
  lemma CreatedNowIsNotYetListed(store: seq<Match>, caller: string, input: MatchInput, newId: ObjectId, now: Time)
    requires input.startTime == now
    requires FromHex(caller).Some? && IdFree(store, newId)
    ensures var r := CreateMatch(store, caller, input, newId, now);
      && r.result.Ok?
      && r.store[|store|] !in GetMatches(r.store, now, "", "")
  {
  }

  // ---------------------------------------------------------------------
  // JoinMatch

  /** `after` is `before` with `p` appended to the roster, the count bumped
      by one and `updatedAt` set; no other field differs. */
  ghost predicate JoinedBy(before: Match, after: Match, p: ObjectId, now: Time) {
    && after.currentParticipants == before.currentParticipants + 1
    && after.participants == before.participants + [p]
    && after.updatedAt == now
    && after.(currentParticipants := before.currentParticipants,
              participants := before.participants,
              updatedAt := before.updatedAt) == before
  }

  /** POST /matches/:matchID/join. */
  function JoinMatch(store: seq<Match>, caller: string, matchId: string, now: Time): (r: Reply<(), seq<Match>>)
    ensures r.result.Err? ==> r.store == store
    ensures FromHex(caller).None? ==> r.result == Err(InvalidCallerId)
    ensures FromHex(caller).Some? && FromHex(matchId).None? ==> r.result == Err(InvalidTargetId)
    ensures FromHex(caller).Some? && FromHex(matchId).Some? ==>
      match FindMatch(store, FromHex(matchId).value)
      case None => r.result == Err(MatchNotFound)
      case Some(i) =>
        var m := store[i];
        var p := FromHex(caller).value;
        && (m.currentParticipants >= m.maxPeople ==> r.result == Err(MatchFull))
        && (m.currentParticipants < m.maxPeople && p in m.participants ==> r.result == Err(AlreadyParticipant))
        && (r.result.Ok? <==> m.currentParticipants < m.maxPeople && p !in m.participants)
        && (r.result.Ok? ==>
              && |r.store| == |store|
              && JoinedBy(m, r.store[i], p, now)
              && r.store[i].currentParticipants <= r.store[i].maxPeople
              && forall j :: 0 <= j < |store| && j != i ==> r.store[j] == store[j])
  {
    match FromHex(caller)
    case None => Reply(Err(InvalidCallerId), store)
    case Some(p) =>
      match FromHex(matchId)
      case None => Reply(Err(InvalidTargetId), store)
      case Some(id) =>
        match FindMatch(store, id)
        case None => Reply(Err(MatchNotFound), store)
        case Some(i) =>
          var m := store[i];
          if m.currentParticipants >= m.maxPeople then Reply(Err(MatchFull), store)
          else if p in m.participants then Reply(Err(AlreadyParticipant), store)
          else
            var joined := m.(currentParticipants := m.currentParticipants + 1,
                             participants := m.participants + [p],
                             updatedAt := now);
            Reply(Ok(()), store[i := joined])
  }

  /** A join, successful or not, keeps every roster consistent (count equal
      to roster length, no one twice), keeps ids unique, and never takes an
      event that was within capacity beyond it. */
  lemma JoinKeepsInvariants(store: seq<Match>, caller: string, matchId: string, now: Time)
    requires AllConsistent(store) && UniqueIds(store)
    ensures var r := JoinMatch(store, caller, matchId, now);
      && AllConsistent(r.store)
      && UniqueIds(r.store)
      && (AllWithinCapacity(store) ==> AllWithinCapacity(r.store))
  {
    var r := JoinMatch(store, caller, matchId, now);
    if r.result.Ok? {
      var i := FindMatch(store, FromHex(matchId).value).value;
      var p := FromHex(caller).value;
      var before, after := store[i], r.store[i];
      assert after.participants == before.participants + [p];
      assert p !in before.participants;
      forall a, b | 0 <= a < b < |after.participants|
        ensures after.participants[a] != after.participants[b]
      {
        if b == |before.participants| {
          assert after.participants[a] == before.participants[a];
        }
      }
      assert RosterConsistent(after);
      assert forall j :: 0 <= j < |store| ==> r.store[j].id == store[j].id;
    }
  }

  /** The outcome of a sequence of joins on one event, one caller after the
      other: the final store and the number of joins that succeeded. */
  function JoinEach(store: seq<Match>, matchId: string, callers: seq<ObjectId>, now: Time): (r: (seq<Match>, nat))
    ensures r.1 <= |callers|
    decreases |callers|
  {
    if callers == [] then (store, 0)
    else
      var first := JoinMatch(store, Hex(callers[0]), matchId, now);
      var rest := JoinEach(first.store, matchId, callers[1..], now);
      (rest.0, rest.1 + if first.result.Ok? then 1 else 0)
  }

  /** A position holding `id` with no earlier occurrence is what the lookup
      finds. */
  lemma {:induction false} FindMatchAt(store: seq<Match>, id: ObjectId, i: nat)
    requires i < |store| && store[i].id == id && IdFree(store[..i], id)
    ensures FindMatch(store, id) == Some(i)
  {
    if i > 0 {
      assert store[0] == store[..i][0];
      assert store[1..][..i - 1] == store[1..i];
      assert forall j :: 0 <= j < i - 1 ==> store[1..i][j] == store[..i][j + 1];
      FindMatchAt(store[1..], id, i - 1);
    }
  }

  /** Replacing the document at `i` by one with the same id keeps `i` as the
      first position of that id. */
  lemma FindAfterUpdate(store: seq<Match>, id: ObjectId, i: nat, m: Match)
    requires FindMatch(store, id) == Some(i)
    requires m.id == id
    ensures FindMatch(store[i := m], id) == Some(i)
  {
    var store' := store[i := m];
    assert store'[..i] == store[..i];
    FindMatchAt(store', id, i);
  }

  /** Distinct newcomers joining an event one after the other: exactly as
      many succeed as there are free places (or callers, if fewer), and the
      count ends at the old count plus the successes, never above capacity. */
  lemma {:induction false} JoinsFillFreePlaces(store: seq<Match>, matchId: string, callers: seq<ObjectId>, now: Time)
    requires FromHex(matchId).Some?
    requires FindMatch(store, FromHex(matchId).value).Some?
    requires var m := store[FindMatch(store, FromHex(matchId).value).value];
      RosterConsistent(m) && WithinCapacity(m)
      && forall k :: 0 <= k < |callers| ==> callers[k] !in m.participants
    requires forall a, b :: 0 <= a < b < |callers| ==> callers[a] != callers[b]
    ensures var i := FindMatch(store, FromHex(matchId).value).value;
      var m := store[i];
      var r := JoinEach(store, matchId, callers, now);
      && r.1 == (if |callers| <= m.maxPeople - m.currentParticipants then |callers| else m.maxPeople - m.currentParticipants)
      && |r.0| == |store|
      && r.0[i].currentParticipants == m.currentParticipants + r.1
      && r.0[i].currentParticipants <= m.maxPeople
      && RosterConsistent(r.0[i])
    decreases |callers|
  {
    var id := FromHex(matchId).value;
    var i := FindMatch(store, id).value;
    var m := store[i];
    if callers != [] {
      var c := callers[0];
      FromHexOfHex(c);
      var first := JoinMatch(store, Hex(c), matchId, now);
      if m.currentParticipants < m.maxPeople {
        assert first.result.Ok?;
        var m' := first.store[i];
        assert first.store == store[i := m'];
        FindAfterUpdate(store, id, i, m');
        forall a, b | 0 <= a < b < |m'.participants|
          ensures m'.participants[a] != m'.participants[b]
        {
          if b == |m.participants| {
            assert m'.participants[a] == m.participants[a];
          }
        }
        forall k | 0 <= k < |callers[1..]|
          ensures callers[1..][k] !in m'.participants
        {
          assert callers[1..][k] == callers[k + 1];
          assert callers[k + 1] != c;
        }
        JoinsFillFreePlaces(first.store, matchId, callers[1..], now);
      } else {
        assert first.store == store;
        JoinsFillFreePlaces(store, matchId, callers[1..], now);
      }
    }
  }
}

=== FILE: object_ids.dfy ===
/** Document identifiers as the MongoDB driver handles them.

    Every handler turns a hexadecimal string (the caller's id carried by the
    token, a path parameter, a field of the request body) into an ObjectID
    with the driver's `ObjectIDFromHex`, and answers with an error when that
    fails. An ObjectID is twelve bytes; its textual form is twenty-four hex
    digits, written in lower case and read in either case.
 */
module ObjectIds {
  import opened Results

  type Byte = b: int | 0 <= b < 256

  /** Exactly twelve bytes, as in the driver's `[12]byte`. */
  type ObjectId = b: seq<Byte> | |b| == 12 witness [0, 0, 0, 0, 0, 0, 0, 0, 0, 0, 0, 0]

  predicate IsHexDigit(c: char) {
    '0' <= c <= '9' || 'a' <= c <= 'f' || 'A' <= c <= 'F'
  }

  predicate IsLowerHexDigit(c: char) {
    '0' <= c <= '9' || 'a' <= c <= 'f'
  }

  function DigitValue(c: char): (v: nat)
    requires IsHexDigit(c)
    ensures v < 16
  {
    if '0' <= c <= '9' then c as int - '0' as int
    else if 'a' <= c <= 'f' then c as int - 'a' as int + 10
    else c as int - 'A' as int + 10
  }

  /** The digit the encoder writes for a nibble. */
  function LowerDigit(v: nat): (c: char)
    requires v < 16
    ensures IsLowerHexDigit(c) && DigitValue(c) == v
  {
    if v < 10 then ('0' as int + v) as char else ('a' as int + v - 10) as char
  }

  /** Upper-case hex letters folded to lower case; every other character kept. */
  function LowerChar(c: char): (d: char)
    ensures IsHexDigit(c) ==> IsLowerHexDigit(d) && DigitValue(d) == DigitValue(c)
    ensures IsLowerHexDigit(c) ==> d == c
  {
    if 'A' <= c <= 'F' then (c as int - 'A' as int + 'a' as int) as char else c
  }

  function Lower(s: string): (t: string)
    ensures |t| == |s|
  {
    if s == "" then "" else [LowerChar(s[0])] + Lower(s[1..])
  }

  /** `hex.EncodeToString`: two lower-case digits per byte, high nibble first. */
  function Encode(b: seq<Byte>): (s: string)
    ensures |s| == 2 * |b|
    ensures forall i :: 0 <= i < |s| ==> IsLowerHexDigit(s[i])
  {
    if b == [] then "" else [LowerDigit(b[0] / 16), LowerDigit(b[0] % 16)] + Encode(b[1..])
  }

  /** `hex.DecodeString` on an even-length input: fails on any non-hex character. */
  function Decode(s: string): (r: Option<seq<Byte>>)
    requires |s| % 2 == 0
    ensures r.Some? <==> forall i :: 0 <= i < |s| ==> IsHexDigit(s[i])
    ensures r.Some? ==> 2 * |r.value| == |s|
  {
    if s == "" then Some([])
    else if !IsHexDigit(s[0]) || !IsHexDigit(s[1]) then None
    else match Decode(s[2..])
      case None => None
      case Some(rest) => Some([DigitValue(s[0]) * 16 + DigitValue(s[1])] + rest)
  }

  /** `primitive.ObjectIDFromHex`: the string must be 24 hex digits long.
      (Go measures the length in bytes; a string holding a non-ASCII
      character fails either test, so counting characters agrees.) */
  function FromHex(s: string): (r: Option<ObjectId>)
    ensures r.Some? <==> |s| == 24 && forall i :: 0 <= i < |s| ==> IsHexDigit(s[i])
  {
    if |s| != 24 then None
    else match Decode(s)
      case None => None
      case Some(b) => Some(b)
  }

  /** `ObjectID.Hex()`. */
  function Hex(id: ObjectId): (s: string)
    ensures |s| == 24
    ensures forall i :: 0 <= i < |s| ==> IsLowerHexDigit(s[i])
  {
    Encode(id)
  }

  lemma {:induction false} DecodeEncode(b: seq<Byte>)
    ensures Decode(Encode(b)) == Some(b)
  {
    if b != [] {
      var s := Encode(b);
      assert s[2..] == Encode(b[1..]);
      DecodeEncode(b[1..]);
      assert DigitValue(s[0]) * 16 + DigitValue(s[1]) == b[0];
      assert [b[0]] + b[1..] == b;
    }
  }

  lemma {:induction false} EncodeDecode(s: string)
    requires |s| % 2 == 0
    requires Decode(s).Some?
    ensures Encode(Decode(s).value) == Lower(s)
  {
    if s != "" {
      var rest := Decode(s[2..]).value;
      EncodeDecode(s[2..]);
      var v := DigitValue(s[0]) * 16 + DigitValue(s[1]);
      assert Decode(s).value == [v] + rest;
      assert v / 16 == DigitValue(s[0]) && v % 16 == DigitValue(s[1]);
      assert LowerDigit(DigitValue(s[0])) == LowerChar(s[0]) by {
        LowerDigitUnique(DigitValue(s[0]), LowerChar(s[0]));
      }
      assert LowerDigit(DigitValue(s[1])) == LowerChar(s[1]) by {
        LowerDigitUnique(DigitValue(s[1]), LowerChar(s[1]));
      }
      assert Lower(s) == [LowerChar(s[0]), LowerChar(s[1])] + Lower(s[2..]) by {
        assert Lower(s) == [LowerChar(s[0])] + Lower(s[1..]);
        assert s[1..][1..] == s[2..];
      }
    }
  }

  /** Each nibble has exactly one lower-case digit. */
  lemma LowerDigitUnique(v: nat, c: char)
    requires v < 16 && IsLowerHexDigit(c) && DigitValue(c) == v
    ensures LowerDigit(v) == c
  {
  }

  /** Printing an id and reading it back gives the same id. */
  lemma FromHexOfHex(id: ObjectId)
    ensures FromHex(Hex(id)) == Some(id)
  {
    DecodeEncode(id);
  }

  /** Reading an id and printing it gives back the input, folded to lower
      case: two strings name the same id exactly when they agree up to the
      case of their letters. */
  lemma HexOfFromHex(s: string)
    requires FromHex(s).Some?
    ensures Hex(FromHex(s).value) == Lower(s)
  {
    EncodeDecode(s);
  }
}

=== FILE: results.dfy ===
/** Shared result shapes for every handler of the backend.

    A handler either answers with a value or with one of the errors the Go
    controllers send back as `{"error": ...}`; alongside the answer it hands
    back the collection it worked on, changed or not, so that "the store is
    unchanged" can be stated as plain equality.
 */
module Results {

  /** A wall-clock instant, in whatever unit the store keeps; only its order
      matters to the handlers. The current time is always an argument. */
  type Time = int

  datatype Option<+T> = None | Some(value: T)

  /** The error replies of the controllers, one constructor per distinct
      message. The HTTP status each one travels with is noted beside it. */
  datatype Error =
    | InvalidCallerId         // 500 "Invalid <user|creator|swiper|participant> ID format"
    | InvalidTargetId         // 400 "Invalid match ID format" / "Invalid swiped user ID format" / ...
    | StartTimeInPast         // 400 "Start time must be in the future"
    | MatchNotFound           // 404 "Match not found"
    | MatchFull               // 409 "Match is already full"
    | AlreadyParticipant      // 409 "User is already a participant in this match"
    | SelfSwipe               // 400 "Cannot swipe on yourself"
    | EmailTaken              // 409 "Email already registered"
    | HashFailed              // 500 "Failed to hash password"
    | TokenFailed             // 500 "Failed to generate token"
    | InvalidCredentials      // 401 "Invalid credentials"
    | UserNotFound            // 404 "User not found"
    | NoPhotos                // 400 "No photos uploaded"
    | ConversationsFailed     // 500 "Failed to retrieve conversations"
    | StoreFailed             // 500 "Failed to create match" / "Failed to record swipe" / ...

  datatype Result<+T> = Ok(value: T) | Err(error: Error)

  /** What a handler answers, together with the collection afterwards. */
  datatype Reply<+T, +S> = Reply(result: Result<T>, store: S)
}

=== FILE: seqs.dfy ===
/** Sequence operations the store's queries are built from: selecting the
    documents a filter admits, and ordering them by a numeric sort key. */
module Seqs {

  /** The documents of `s` that `p` admits, in their stored order, each
      exactly as often as it is stored. */
  function Filter<T(!new)>(s: seq<T>, p: T -> bool): (r: seq<T>)
    ensures |r| <= |s|
    ensures forall i :: 0 <= i < |r| ==> p(r[i])
    ensures forall x :: multiset(r)[x] == if p(x) then multiset(s)[x] else 0
    ensures forall x :: x in r <==> x in s && p(x)
  {
    if s == [] then []
    else
      assert s == [s[0]] + s[1..];
      var rest := Filter(s[1..], p);
      if p(s[0]) then [s[0]] + rest else rest
  }

  /** Ordered by `key`, ascending. */
  ghost predicate SortedBy<T>(s: seq<T>, key: T -> int) {
    forall i, j :: 0 <= i < j < |s| ==> key(s[i]) <= key(s[j])
  }

  /** Putting an element no larger than the head in front keeps the order. */
  lemma ConsSorted<T>(y: T, rest: seq<T>, key: T -> int)
    requires SortedBy(rest, key)
    requires |rest| > 0 ==> key(y) <= key(rest[0])
    ensures SortedBy([y] + rest, key)
  {
    var r := [y] + rest;
    forall i, j | 0 <= i < j < |r| ensures key(r[i]) <= key(r[j]) {
      if i == 0 {
        assert r[j] == rest[j - 1];
      } else {
        assert r[i] == rest[i - 1] && r[j] == rest[j - 1];
      }
    }
  }

  /** Places `x` before the first element whose key is not smaller. */
  function Insert<T>(x: T, s: seq<T>, key: T -> int): (r: seq<T>)
    requires SortedBy(s, key)
    ensures SortedBy(r, key)
    ensures |r| == |s| + 1
    ensures r[0] == x || (|s| > 0 && r[0] == s[0])
  {
    if s == [] || key(x) <= key(s[0]) then
      ConsSorted(x, s, key);
      [x] + s
    else
      var rest := Insert(x, s[1..], key);
      assert |s[1..]| > 0 ==> key(s[0]) <= key(s[1..][0]);
      ConsSorted(s[0], rest, key);
      [s[0]] + rest
  }

  /** Inserting adds `x` and loses nothing. */
  lemma {:induction false} InsertPermutes<T>(x: T, s: seq<T>, key: T -> int)
    requires SortedBy(s, key)
    ensures multiset(Insert(x, s, key)) == multiset(s) + multiset{x}
  {
    if s != [] && key(s[0]) < key(x) {
      assert s == [s[0]] + s[1..];
      InsertPermutes(x, s[1..], key);
    }
  }

  /** A stable insertion sort: a permutation of `s` ordered by `key`. */
  function SortBy<T>(s: seq<T>, key: T -> int): (r: seq<T>)
    ensures SortedBy(r, key)
    ensures multiset(r) == multiset(s)
    ensures |r| == |s|
  {
    if s == [] then []
    else
      assert s == [s[0]] + s[1..];
      var sorted := SortBy(s[1..], key);
      InsertPermutes(s[0], sorted, key);
      Insert(s[0], sorted, key)
  }
}

=== FILE: swipes.dfy ===
/** The swipe ledger and mutual-interest detection.

    Every accepted swipe is appended to the `swipes` collection as its own
    document; nothing is ever merged or overwritten, so swiping the same
    person twice leaves two records. A "right" swipe is reported as a match
    when the ledger already holds a "right" swipe in the opposite direction.
 */
module Swipes {
  import opened Results
  import opened ObjectIds

  datatype Swipe = Swipe(id: ObjectId, swiper: ObjectId, swiped: ObjectId, direction: string, timestamp: Time)

  /** The body of a swipe request: the target's hex id and the direction. */
  datatype SwipeInput = SwipeInput(swipedId: string, direction: string)

  /** The one direction that expresses interest. */
  const Right: string := "right"

  /** The ledger holds a "right" swipe by `from` on `to`. */
  ghost predicate HasRight(ledger: seq<Swipe>, from: ObjectId, to: ObjectId) {
    exists k :: 0 <= k < |ledger| && ledger[k].swiper == from && ledger[k].swiped == to && ledger[k].direction == Right
  }

  /** Two users are connected when each has swiped right on the other. */
  ghost predicate Connected(ledger: seq<Swipe>, a: ObjectId, b: ObjectId) {
    HasRight(ledger, a, b) && HasRight(ledger, b, a)
  }

  predicate IdFree(ledger: seq<Swipe>, id: ObjectId) {
    forall k :: 0 <= k < |ledger| ==> ledger[k].id != id
  }

  /** How many records the ledger holds for the ordered pair. */
  function CountPair(ledger: seq<Swipe>, from: ObjectId, to: ObjectId): nat {
    if ledger == [] then 0
    else CountPair(ledger[..|ledger| - 1], from, to)
         + if ledger[|ledger| - 1].swiper == from && ledger[|ledger| - 1].swiped == to then 1 else 0
  }

  /** `FindOne({swiper: from, swiped: to, direction: "right"})`. */
  function FindRight(ledger: seq<Swipe>, from: ObjectId, to: ObjectId): (r: Option<Swipe>)
    ensures r.Some? <==> HasRight(ledger, from, to)
    ensures r.Some? ==> r.value in ledger && r.value.swiper == from && r.value.swiped == to && r.value.direction == Right
  {
    if ledger == [] then None
    else if ledger[0].swiper == from && ledger[0].swiped == to && ledger[0].direction == Right then Some(ledger[0])
    else
      var r := FindRight(ledger[1..], from, to);
      assert HasRight(ledger, from, to) ==> HasRight(ledger[1..], from, to) by {
        if HasRight(ledger, from, to) {
          var k :| 0 <= k < |ledger| && ledger[k].swiper == from && ledger[k].swiped == to && ledger[k].direction == Right;
          assert ledger[1..][k - 1] == ledger[k];
        }
      }
      assert HasRight(ledger[1..], from, to) ==> HasRight(ledger, from, to) by {
        if HasRight(ledger[1..], from, to) {
          var k :| 0 <= k < |ledger[1..]| && ledger[1..][k].swiper == from && ledger[1..][k].swiped == to && ledger[1..][k].direction == Right;
          assert ledger[k + 1] == ledger[1..][k];
        }
      }
      r
  }

  /** The record a swipe appends can never answer its own reciprocal lookup,
      since swiper and swiped differ: looking after the insert sees exactly
      what looking before it would have seen. */
  lemma ReciprocalIgnoresOwnRecord(ledger: seq<Swipe>, s: Swipe)
    requires s.swiper != s.swiped
    ensures HasRight(ledger + [s], s.swiped, s.swiper) <==> HasRight(ledger, s.swiped, s.swiper)
  {
    var l := ledger + [s];
    if HasRight(l, s.swiped, s.swiper) {
      var k :| 0 <= k < |l| && l[k].swiper == s.swiped && l[k].swiped == s.swiper && l[k].direction == Right;
      assert k < |ledger|;
      assert ledger[k] == l[k];
    }
    if HasRight(ledger, s.swiped, s.swiper) {
      var k :| 0 <= k < |ledger| && ledger[k].swiper == s.swiped && ledger[k].swiped == s.swiper && ledger[k].direction == Right;
      assert l[k] == ledger[k];
    }
  }

  /** POST /swipes. Answers `is_match`. */
  function CreateSwipe(ledger: seq<Swipe>, caller: string, input: SwipeInput, newId: ObjectId, now: Time)
    : (r: Reply<bool, seq<Swipe>>)
    ensures r.result.Err? ==> r.store == ledger
    ensures FromHex(caller).None? ==> r.result == Err(InvalidCallerId)
    ensures FromHex(caller).Some? && FromHex(input.swipedId).None? ==> r.result == Err(InvalidTargetId)
    ensures FromHex(caller).Some? && FromHex(caller) == FromHex(input.swipedId) ==> r.result == Err(SelfSwipe)
    ensures r.result.Ok? <==>
      && FromHex(caller).Some? && FromHex(input.swipedId).Some?
      && FromHex(caller) != FromHex(input.swipedId)
      && IdFree(ledger, newId)
    ensures r.result.Ok? ==>
      var swiper, swiped := FromHex(caller).value, FromHex(input.swipedId).value;
      && r.store == ledger + [Swipe(newId, swiper, swiped, input.direction, now)]
      && CountPair(r.store, swiper, swiped) == CountPair(ledger, swiper, swiped) + 1
      && (r.result.value <==> input.direction == Right && HasRight(ledger, swiped, swiper))
  {
    match FromHex(caller)
    case None => Reply(Err(InvalidCallerId), ledger)
    case Some(swiper) =>
      match FromHex(input.swipedId)
      case None => Reply(Err(InvalidTargetId), ledger)
      case Some(swiped) =>
        if swiper == swiped then Reply(Err(SelfSwipe), ledger)
        else if !IdFree(ledger, newId) then Reply(Err(StoreFailed), ledger)
        else
          var s := Swipe(newId, swiper, swiped, input.direction, now);
          var ledger' := ledger + [s];
          assert ledger'[..|ledger'| - 1] == ledger;
          ReciprocalIgnoresOwnRecord(ledger, s);
          var isMatch := input.direction == Right && FindRight(ledger', swiped, swiper).Some?;
          Reply(Ok(isMatch), ledger')
  }

  /** For a right swipe, `is_match` holds exactly when the two users are
      connected in the ledger the swipe leaves behind. */
  lemma MatchMeansConnected(ledger: seq<Swipe>, caller: string, input: SwipeInput, newId: ObjectId, now: Time)
    requires input.direction == Right
    ensures var r := CreateSwipe(ledger, caller, input, newId, now);
      r.result.Ok? ==>
        (r.result.value <==> Connected(r.store, FromHex(caller).value, FromHex(input.swipedId).value))
  {
    var r := CreateSwipe(ledger, caller, input, newId, now);
    if r.result.Ok? {
      var swiper, swiped := FromHex(caller).value, FromHex(input.swipedId).value;
      var s := Swipe(newId, swiper, swiped, input.direction, now);
      assert r.store[|ledger|] == s;
      assert HasRight(r.store, swiper, swiped);
      ReciprocalIgnoresOwnRecord(ledger, s);
    }
  }

  /** Two right swipes between the same two users, in either order: the
      second one is reported as a match. */
  lemma MutualRightSwipesMatch(ledger: seq<Swipe>, a: ObjectId, b: ObjectId, id1: ObjectId, id2: ObjectId, t1: Time, t2: Time)
    requires a != b && id1 != id2
    requires IdFree(ledger, id1) && IdFree(ledger, id2)
    ensures var first := CreateSwipe(ledger, Hex(a), SwipeInput(Hex(b), Right), id1, t1);
      var second := CreateSwipe(first.store, Hex(b), SwipeInput(Hex(a), Right), id2, t2);
      first.result.Ok? && second.result == Ok(true)
  {
    FromHexOfHex(a);
    FromHexOfHex(b);
    var first := CreateSwipe(ledger, Hex(a), SwipeInput(Hex(b), Right), id1, t1);
    assert first.store[|ledger|].swiper == a;
    assert HasRight(first.store, a, b);
  }

  /** Swiping the same person twice is not folded into one record: both
      calls succeed and the ledger holds two more records for the pair. */
  lemma RepeatedSwipesAccumulate(ledger: seq<Swipe>, caller: string, input: SwipeInput, id1: ObjectId, id2: ObjectId, t1: Time, t2: Time)
    requires id1 != id2 && IdFree(ledger, id1) && IdFree(ledger, id2)
    requires FromHex(caller).Some? && FromHex(input.swipedId).Some? && FromHex(caller) != FromHex(input.swipedId)
    ensures var first := CreateSwipe(ledger, caller, input, id1, t1);
      var second := CreateSwipe(first.store, caller, input, id2, t2);
      && first.result.Ok? && second.result.Ok?
      && |second.store| == |ledger| + 2
      && CountPair(second.store, FromHex(caller).value, FromHex(input.swipedId).value)
         == CountPair(ledger, FromHex(caller).value, FromHex(input.swipedId).value) + 2
  {
    var first := CreateSwipe(ledger, caller, input, id1, t1);
    assert first.store[|ledger|].id == id1;
  }
}

=== FILE: users.dfy ===
/** The user records: registration, login, reading and updating a profile,
    and recording uploaded profile pictures.

    Password hashing, password checking and token signing belong to other
    packages; each handler receives them as functions. `hash` answers
    `None` when hashing fails and `sign` answers `None` when no token can
    be produced; `check(password, hash)` says whether the password matches
    the stored hash. The id of a new user and the current time are
    arguments as well.
 */
module Users {
  import opened Results
  import opened ObjectIds

  datatype AgeRange = AgeRange(min: int, max: int)

  datatype User = User(
    id: ObjectId,
    name: string,
    email: string,
    passwordHash: string,
    dateOfBirth: Time,
    gender: string,
    profilePictureUrls: seq<string>,
    sports: seq<string>,
    lookingForGender: string,
    ageRange: AgeRange,
    skillLevel: string,
    createdAt: Time,
    updatedAt: Time)

  datatype RegisterInput = RegisterInput(name: string, email: string, password: string, dateOfBirth: Time, gender: string)

  datatype LoginInput = LoginInput(email: string, password: string)

  /** The four profile fields a user may change. */
  datatype ProfileUpdate = ProfileUpdate(sports: seq<string>, lookingForGender: string, ageRange: AgeRange, skillLevel: string)

  /** A successful registration or login: the signed token and the user's
      hex id. */
  datatype Session = Session(token: string, userId: string)

  const DefaultLookingForGender: string := "Everyone"
  const DefaultAgeRange: AgeRange := AgeRange(18, 99)
  const DefaultSkillLevel: string := "All Levels"

  /** Where a picture is said to live until real storage exists. */
  const PictureBase: string := "https://example.com/profile_pictures/"

  predicate EmailFree(users: seq<User>, email: string) {
    forall k :: 0 <= k < |users| ==> users[k].email != email
  }

  predicate IdFree(users: seq<User>, id: ObjectId) {
    forall k :: 0 <= k < |users| ==> users[k].id != id
  }

  /** No two users share an email address. */
  predicate UniqueEmails(users: seq<User>) {
    forall i, j :: 0 <= i < j < |users| ==> users[i].email != users[j].email
  }

  /** No two users share an id. */
  predicate UniqueIds(users: seq<User>) {
    forall i, j :: 0 <= i < j < |users| ==> users[i].id != users[j].id
  }

  /** `FindOne({email: e})`: the first user with that address. */
  function FindByEmail(users: seq<User>, email: string): (r: Option<nat>)
    ensures r.None? <==> EmailFree(users, email)
    ensures r.Some? ==> r.value < |users| && users[r.value].email == email
    ensures r.Some? ==> forall k :: 0 <= k < r.value ==> users[k].email != email
  {
    if users == [] then None
    else if users[0].email == email then Some(0)
    else match FindByEmail(users[1..], email)
      case None => None
      case Some(k) => Some(k + 1)
  }

  /** `FindOne({_id: id})` and the document `UpdateByID` addresses: the
      first user with that id. */
  function FindById(users: seq<User>, id: ObjectId): (r: Option<nat>)
    ensures r.None? <==> IdFree(users, id)
    ensures r.Some? ==> r.value < |users| && users[r.value].id == id
    ensures r.Some? ==> forall k :: 0 <= k < r.value ==> users[k].id != id
  {
    if users == [] then None
    else if users[0].id == id then Some(0)
    else match FindById(users[1..], id)
      case None => None
      case Some(k) => Some(k + 1)
  }

  // ---------------------------------------------------------------------
  // RegisterUser

  /** The document a registration inserts: the submitted details, the
      password's hash, and the default preferences. */
  function NewUser(input: RegisterInput, passwordHash: string, id: ObjectId, now: Time): (u: User)
    ensures u.id == id && u.name == input.name && u.email == input.email && u.passwordHash == passwordHash
    ensures u.dateOfBirth == input.dateOfBirth && u.gender == input.gender
    ensures u.sports == [] && u.profilePictureUrls == []
    ensures u.lookingForGender == "Everyone" && u.ageRange == AgeRange(18, 99) && u.skillLevel == "All Levels"
    ensures u.createdAt == now && u.updatedAt == now
  {
    User(id, input.name, input.email, passwordHash, input.dateOfBirth, input.gender,
         [], [], DefaultLookingForGender, DefaultAgeRange, DefaultSkillLevel, now, now)
  }

  /** POST /register. A taken address, a failed hash or a refused insert
      leave the collection as it was. A failure to sign the token comes
      after the insert, so the user stays registered even though the
      caller is told of an error. */
  function RegisterUser(users: seq<User>, input: RegisterInput, hash: string -> Option<string>,
                        sign: string -> Option<string>, newId: ObjectId, now: Time)
    : (r: Reply<Session, seq<User>>)
    ensures r.result == Err(EmailTaken) <==> !EmailFree(users, input.email)
    ensures EmailFree(users, input.email) && hash(input.password).None? ==> r.result == Err(HashFailed)
    ensures r.result.Err? && r.result.error != TokenFailed ==> r.store == users
    ensures r.result.Ok? <==>
      EmailFree(users, input.email) && hash(input.password).Some? && IdFree(users, newId) && sign(Hex(newId)).Some?
    ensures r.result.Ok? || r.result == Err(TokenFailed) ==>
      && hash(input.password).Some?
      && IdFree(users, newId)
      && r.store == users + [NewUser(input, hash(input.password).value, newId, now)]
    ensures r.result.Ok? ==> r.result.value == Session(sign(Hex(newId)).value, Hex(newId))
    ensures EmailFree(users, input.email) && hash(input.password).Some? && IdFree(users, newId) && sign(Hex(newId)).None? ==>
      r.result == Err(TokenFailed)
  {
    if !EmailFree(users, input.email) then Reply(Err(EmailTaken), users)
    else match hash(input.password)
      case None => Reply(Err(HashFailed), users)
      case Some(h) =>
        if !IdFree(users, newId) then Reply(Err(StoreFailed), users)
        else
          var users' := users + [NewUser(input, h, newId, now)];
          match sign(Hex(newId))
          case None => Reply(Err(TokenFailed), users')
          case Some(token) => Reply(Ok(Session(token, Hex(newId))), users')
  }

  /** Registration keeps addresses and ids unique, whatever it answers. */
  lemma RegisterKeepsInvariants(users: seq<User>, input: RegisterInput, hash: string -> Option<string>,
                                sign: string -> Option<string>, newId: ObjectId, now: Time)
    requires UniqueEmails(users) && UniqueIds(users)
    ensures var r := RegisterUser(users, input, hash, sign, newId, now);
      UniqueEmails(r.store) && UniqueIds(r.store)
  {
    var r := RegisterUser(users, input, hash, sign, newId, now);
    if r.store != users {
      var n := |users|;
      assert r.store[n].email == input.email && r.store[n].id == newId;
      assert forall k :: 0 <= k < n ==> r.store[k] == users[k];
    }
  }

  // ---------------------------------------------------------------------
  // LoginUser

  /** POST /login. Login reads the collection and never changes it. */
  function LoginUser(users: seq<User>, input: LoginInput, check: (string, string) -> bool,
                     sign: string -> Option<string>): (r: Result<Session>)
    ensures r == Err(InvalidCredentials) <==>
      || EmailFree(users, input.email)
      || !check(input.password, users[FindByEmail(users, input.email).value].passwordHash)
    ensures r.Ok? ==>
      exists k :: 0 <= k < |users| && users[k].email == input.email
        && check(input.password, users[k].passwordHash)
        && sign(Hex(users[k].id)) == Some(r.value.token) && r.value.userId == Hex(users[k].id)
    ensures r.Err? ==> r.error == InvalidCredentials || r.error == TokenFailed
    ensures !EmailFree(users, input.email) && check(input.password, users[FindByEmail(users, input.email).value].passwordHash) ==>
      var k := FindByEmail(users, input.email).value;
      && (r.Ok? <==> sign(Hex(users[k].id)).Some?)
      && (r.Ok? ==> r.value == Session(sign(Hex(users[k].id)).value, Hex(users[k].id)))
  {
    match FindByEmail(users, input.email)
    case None => Err(InvalidCredentials)
    case Some(k) =>
      if !check(input.password, users[k].passwordHash) then Err(InvalidCredentials)
      else match sign(Hex(users[k].id))
        case None => Err(TokenFailed)
        case Some(token) => Ok(Session(token, Hex(users[k].id)))
  }

  /** An unknown address and a wrong password get the very same answer,
      so the reply does not reveal which addresses are registered. */
  lemma LoginFailuresAlike(users: seq<User>, unknown: LoginInput, wrong: LoginInput,
                           check: (string, string) -> bool, sign: string -> Option<string>)
    requires EmailFree(users, unknown.email)
    requires !EmailFree(users, wrong.email)
    requires !check(wrong.password, users[FindByEmail(users, wrong.email).value].passwordHash)
    ensures LoginUser(users, unknown, check, sign) == LoginUser(users, wrong, check, sign)
    ensures LoginUser(users, unknown, check, sign) == Err(InvalidCredentials)
  {
  }

  /** Whenever `check` accepts a password against the hash `hash` made of
      it, a fresh registration can log in straight away, as the new user. */
  lemma RegisterThenLogin(users: seq<User>, input: RegisterInput, hash: string -> Option<string>,
                          check: (string, string) -> bool, sign: string -> Option<string>, newId: ObjectId, now: Time)
    requires forall p :: hash(p).Some? ==> check(p, hash(p).value)
    ensures var r := RegisterUser(users, input, hash, sign, newId, now);
      r.result.Ok? ==>
        LoginUser(r.store, LoginInput(input.email, input.password), check, sign) == r.result
  {
    var r := RegisterUser(users, input, hash, sign, newId, now);
    if r.result.Ok? {
      var n := |users|;
      assert r.store[n] == NewUser(input, hash(input.password).value, newId, now);
      assert forall k :: 0 <= k < n ==> r.store[k] == users[k];
      var found := FindByEmail(r.store, input.email);
      assert found.Some?;
      assert found.value == n;
    }
  }

  // ---------------------------------------------------------------------
  // GetUserProfile

  /** GET /profile: the caller's record with the password hash blanked. */
  function GetUserProfile(users: seq<User>, caller: string): (r: Result<User>)
    ensures FromHex(caller).None? ==> r == Err(InvalidCallerId)
    ensures r.Ok? <==> FromHex(caller).Some? && !IdFree(users, FromHex(caller).value)
    ensures r.Err? ==> r.error == InvalidCallerId || r.error == UserNotFound
    ensures r.Ok? ==>
      && r.value.passwordHash == ""
      && r.value.id == FromHex(caller).value
      && exists k :: 0 <= k < |users| && users[k] == r.value.(passwordHash := users[k].passwordHash)
  {
    match FromHex(caller)
    case None => Err(InvalidCallerId)
    case Some(id) =>
      match FindById(users, id)
      case None => Err(UserNotFound)
      case Some(k) =>
        var u := users[k].(passwordHash := "");
        assert users[k] == u.(passwordHash := users[k].passwordHash);
        Ok(u)
  }

  // ---------------------------------------------------------------------
  // UpdateUserProfile and UploadProfilePictures

  /** Everything about a user the profile update leaves alone. */
  predicate SameExceptPreferences(a: User, b: User) {
    && a.id == b.id && a.name == b.name && a.email == b.email && a.passwordHash == b.passwordHash
    && a.dateOfBirth == b.dateOfBirth && a.gender == b.gender
    && a.profilePictureUrls == b.profilePictureUrls && a.createdAt == b.createdAt
  }

  /** Everything about a user the picture upload leaves alone. */
  predicate SameExceptPictures(a: User, b: User) {
    && a.id == b.id && a.name == b.name && a.email == b.email && a.passwordHash == b.passwordHash
    && a.dateOfBirth == b.dateOfBirth && a.gender == b.gender
    && a.sports == b.sports && a.lookingForGender == b.lookingForGender
    && a.ageRange == b.ageRange && a.skillLevel == b.skillLevel && a.createdAt == b.createdAt
  }

  /** PUT /profile. `UpdateByID` with no matching document is not an error:
      the answer is a success and nothing changes. */
  function UpdateUserProfile(users: seq<User>, caller: string, input: ProfileUpdate, now: Time)
    : (r: Reply<(), seq<User>>)
    ensures FromHex(caller).None? <==> r.result == Err(InvalidCallerId)
    ensures FromHex(caller).Some? ==> r.result == Ok(())
    ensures r.result.Err? || IdFree(users, FromHex(caller).value) ==> r.store == users
    ensures |r.store| == |users|
    ensures forall k :: 0 <= k < |users| && (r.result.Err? || users[k].id != FromHex(caller).value) ==>
      r.store[k] == users[k]
    ensures forall k :: 0 <= k < |users| ==> SameExceptPreferences(r.store[k], users[k])
    ensures r.result.Ok? && !IdFree(users, FromHex(caller).value) ==>
      var k := FindById(users, FromHex(caller).value).value;
      && r.store[k].sports == input.sports
      && r.store[k].lookingForGender == input.lookingForGender
      && r.store[k].ageRange == input.ageRange
      && r.store[k].skillLevel == input.skillLevel
      && r.store[k].updatedAt == now
  {
    match FromHex(caller)
    case None => Reply(Err(InvalidCallerId), users)
    case Some(id) =>
      match FindById(users, id)
      case None => Reply(Ok(()), users)
      case Some(k) =>
        var u := users[k].(sports := input.sports, lookingForGender := input.lookingForGender,
                           ageRange := input.ageRange, skillLevel := input.skillLevel, updatedAt := now);
        Reply(Ok(()), users[k := u])
  }

  /** The placeholder address recorded for an uploaded file. */
  function PictureUrl(filename: string): string {
    PictureBase + filename
  }

  /** The file name a placeholder address was made from. */
  function FilenameOf(url: string): (name: string)
    ensures |url| >= |PictureBase| ==> |name| == |url| - |PictureBase|
  {
    if |url| < |PictureBase| then "" else url[|PictureBase|..]
  }

  lemma FilenameOfPictureUrl(filename: string)
    ensures FilenameOf(PictureUrl(filename)) == filename
  {
    assert PictureUrl(filename)[|PictureBase|..] == filename;
  }

  /** The addresses for the uploaded files, one per file, in order. */
  function PictureUrls(filenames: seq<string>): (urls: seq<string>)
    ensures |urls| == |filenames|
    ensures forall i :: 0 <= i < |urls| ==> urls[i] == PictureBase + filenames[i]
    ensures forall i :: 0 <= i < |urls| ==> PictureBase <= urls[i] && FilenameOf(urls[i]) == filenames[i]
  {
    if filenames == [] then []
    else
      FilenameOfPictureUrl(filenames[0]);
      [PictureUrl(filenames[0])] + PictureUrls(filenames[1..])
  }

  /** Different uploads record different address lists: the file names can
      be read back from the addresses. */
  lemma PictureUrlsInjective(a: seq<string>, b: seq<string>)
    requires PictureUrls(a) == PictureUrls(b)
    ensures a == b
  {
    assert |a| == |b|;
    forall i | 0 <= i < |a| ensures a[i] == b[i] {
      assert FilenameOf(PictureUrls(a)[i]) == a[i];
    }
  }

  /** POST /profile/pictures with the names of the uploaded files. The
      answer lists the addresses; the caller's record keeps exactly those,
      replacing whatever it held. */
  function UploadProfilePictures(users: seq<User>, caller: string, filenames: seq<string>, now: Time)
    : (r: Reply<seq<string>, seq<User>>)
    ensures FromHex(caller).None? ==> r.result == Err(InvalidCallerId)
    ensures FromHex(caller).Some? && filenames == [] ==> r.result == Err(NoPhotos)
    ensures r.result.Ok? <==> FromHex(caller).Some? && filenames != []
    ensures r.result.Err? || IdFree(users, FromHex(caller).value) ==> r.store == users
    ensures |r.store| == |users|
    ensures forall k :: 0 <= k < |users| && (r.result.Err? || users[k].id != FromHex(caller).value) ==>
      r.store[k] == users[k]
    ensures forall k :: 0 <= k < |users| ==> SameExceptPictures(r.store[k], users[k])
    ensures r.result.Ok? ==>
      && |r.result.value| == |filenames|
      && (forall i :: 0 <= i < |filenames| ==> r.result.value[i] == PictureBase + filenames[i])
      && (forall i :: 0 <= i < |filenames| ==> FilenameOf(r.result.value[i]) == filenames[i])
      && (!IdFree(users, FromHex(caller).value) ==>
            var k := FindById(users, FromHex(caller).value).value;
            r.store[k].profilePictureUrls == r.result.value && r.store[k].updatedAt == now)
  {
    match FromHex(caller)
    case None => Reply(Err(InvalidCallerId), users)
    case Some(id) =>
      if filenames == [] then Reply(Err(NoPhotos), users)
      else
        var urls := PictureUrls(filenames);
        match FindById(users, id)
        case None => Reply(Ok(urls), users)
        case Some(k) =>
          Reply(Ok(urls), users[k := users[k].(profilePictureUrls := urls, updatedAt := now)])
  }

  /** Neither profile change can break uniqueness of addresses or ids. */
  lemma ProfileChangesKeepInvariants(users: seq<User>, caller: string, input: ProfileUpdate,
                                     filenames: seq<string>, now: Time)
    requires UniqueEmails(users) && UniqueIds(users)
    ensures var r := UpdateUserProfile(users, caller, input, now);
      UniqueEmails(r.store) && UniqueIds(r.store)
    ensures var r := UploadProfilePictures(users, caller, filenames, now);
      UniqueEmails(r.store) && UniqueIds(r.store)
  {
  }
}
